=== FILE: README.md ===
# A model of the C text RPG core

This project models the game logic of a small C text role-playing game. It is
built from five parts:

- **Vector**: a generic dynamic array (`struct vector`) that stores fixed-width
  records. It supports push_back with capacity doubling, search with a caller
  comparator, indexed get, removal of the first byte-identical record,
  removal by index, and release.
- **PCG32**: the XSH-RR random generator in the program's third-party copy.
  The model keeps that copy's casting quirk: `xorshifted` is truncated to
  32 bits before the shift by 27, so it never exceeds 31.
- **Weapons and armor**: each item has a name buffer it owns and numeric
  fields that are 32-bit `unsigned int` with wrap-around.
- **Players and combat**: a player holds a weapons vector, a worn armor, a
  name and a health. Attacks roll damage with `crit` against the target's
  armor resistance.
- **The game**: a vector of players with insert, byte-wise remove, a count,
  and a winner read from slot 0.

Each C function is modelled as a pure Dafny function from the old values to
the new ones. Out-parameters and mutated structs become results. The three
process-wide globals become explicit arguments and results:

- the combat generator `pcg_state`;
- the default generator `pcg32_global`;
- the game's static `players` vector.

Allocation never fails. The address a `malloc` or `realloc` returns is passed
in as a parameter.

A name the program owns is a `CStr`: an opaque buffer address plus its text.
`memcmp` compares addresses, and `strcmp` compares texts. So two weapons with
equal text in different buffers are equal to `weapon_is_equal`, but not to
`vector_pop_search`. A borrowed `const char *` argument is an
`Option<string>`, where `None` stands for NULL. Every text is the part of a C string before its terminating NUL, so it
contains no NUL character itself.

The three comparison functions are predicates:

- `weapon_name_cmp` (src/weapon.c:85-94) is `Weapons.NameCmp`. It holds when the name texts are equal.
- `weapon_is_equal` (src/weapon.c:96-105) is `Weapons.IsEqual`. It compares the name text, the health and the damage.
- `armor_is_equal` (src/armor.c:80-90) is `Armors.IsEqual`. It keeps the source's comparison of the first armor's maximum with the second armor's health.

Lemmas state their properties: `Weapons.IsEqualIsEquivalence`, `Weapons.SameTextDifferentBuffer`, `Armors.IsEqualReflexiveOnlyAtFullHealth` and `Armors.IsEqualNotReflexiveNorSymmetric`.

The two scanning loops of the vector are also written as methods, with loop
invariants:

- the search loop;
- the remove-first-match loop with its left-shift inner loop.

Each of them is proved to compute the same result as the functional
definition.

Files:

- `ctypes.dfy`: `unsigned int` arithmetic, `Option`, and the two `char *`
  forms.
- `vectors.dfy`: the dynamic array.
- `pcg32.dfy`: the generator.
- `weapons.dfy`, `armors.dfy`: the items.
- `players.dfy`: the player and combat.
- `games.dfy`: the match.

Where the documentation and the code differ, the model follows the code:

- The critical-hit roll in `crit` is `pcg32_random_r(&pcg_state) % 4` on a
  generator that nothing seeds. It is not a bounded draw on a seeded
  generator. The all-zero state is a fixed point of the generator, so every
  roll is 0 and every hit with positive damage and resistance is critical.
- `player_attack` calls `weapon_use` on a local copy of the weapon, so the
  attacker's stored weapon never wears down.
- `vector_pop_index` rejects a NULL output buffer, although its header
  comment calls the output optional.
- `game_initialize` returns `false` on every path.

## Model

| member | source | states |
|---|---|---|
| CTypes.AddU32 | src/weapon.c:73 | `unsigned int` addition is the mathematical sum when it fits; otherwise it wraps to the sum minus 2^32, which is smaller than either operand |
| CTypes.SubU32 | src/weapon.c:64 | `unsigned int` subtraction is the difference when it is not negative; otherwise it is 2^32 plus the difference |
| Vectors.Initialize | src/vector.c:8-29 | succeeds exactly when capacity and element size are both positive; on failure the vector is unchanged; on success it installs the new block, capacity and element size, and leaves size as it was |
| Vectors.FirstMatch | src/vector.c:54-62 | returns the index of the leftmost slot the comparator accepts, or None exactly when no slot is accepted |
| Vectors.FirstEqual | src/vector.c:143-146 | for an element that is present, returns the first slot holding an identical record; no earlier slot holds one |
| Vectors.FirstIdentical | src/vector.c:143-146 | the first live slot `memcmp` accepts over the element size: leftmost and accepted, None exactly when no slot is accepted; at a positive size it is the first slot equal to the element, at size 0 it is slot 0 of a non-empty vector |
| Vectors.SearchElement | src/vector.c:32-65 | succeeds exactly when the block exists and some live slot matches; the copy is produced only when an output buffer is supplied, and it is the leftmost matching slot |
| Vectors.SearchLoop | src/vector.c:54-64 | the slot-by-slot loop computes exactly the search result |
| Vectors.GetElement | src/vector.c:67-88 | succeeds exactly when an output buffer is given and the index is below size; the buffer then holds that slot, or is left as it was when the element size is 0 and `memcpy` copies nothing |
| Vectors.Grown | src/vector.c:104 | the grown capacity is larger than the old one: double it, or 1 when it was 0 |
| Vectors.PushBack | src/vector.c:90-120 | size grows by one and the new last slot holds the element; earlier slots keep their values; capacity doubles and the block moves only when the vector was full; size <= capacity is preserved |
| Vectors.RemoveAt | src/vector.c:150-157 | closing the gap at slot i keeps earlier slots, moves later slots one position left, and removes exactly one copy of slot i from the multiset |
| Vectors.PopSearch | src/vector.c:131-163 | succeeds exactly when `memcmp` over the element size accepts some slot: one identical to the element, or any slot at element size 0; it then removes the first such slot (slot 0 at element size 0) and nothing else; on failure the vector is unchanged |
| Vectors.PopSearchLoop | src/vector.c:143-162 | the outer scan, with the `memcmp` test over the element size, plus the left-shift inner loop computes exactly the pop_search result |
| Vectors.PopIndex | src/vector.c:165-194 | fails on a NULL output or an index not below size, leaving the vector unchanged; otherwise the buffer holds the old slot (untouched at element size 0) and the contents lose that slot, keeping block and capacity |
| Vectors.Deinitialize | src/vector.c:196-207 | release leaves no block, element size 0, size 0 and capacity 0 |
| Vectors.GetAfterPushBack | src/headers/vector.h:66-74 | after push_back on a vector of size n, get(n) yields the element (at element size 0 the buffer is untouched), earlier gets are unchanged, and later indices fail |
| Vectors.PopIndexUndoesPushBack | src/headers/vector.h:91-101 | popping index n right after a push_back onto size n yields the pushed element (the untouched buffer at element size 0) and restores the slots |
| Vectors.PopIndexShiftsReads | src/vector.c:177-192 | after removing index i, reads below i are unchanged, reads at j >= i return the old slot j+1, and size <= capacity is kept |
| Vectors.PopSearchRemovesAtMostOne | src/headers/vector.h:78-87 | pop_search removes one slot when `memcmp` accepts one (an identical slot, or any slot at element size 0) and none otherwise; the multiset only shrinks; size <= capacity is kept |
| Vectors.PopSearchKeepsPrefix | src/vector.c:143-158 | the slots before the removed one keep their order and are not accepted by `memcmp`, so at a positive element size they hold no copy of the element; the slots after it move one position left |
| Vectors.DeinitializeIdempotent | src/headers/vector.h:105-110 | releasing a second time changes nothing, and the released vector is a valid empty vector |
| Vectors.PushGetPopScenario | src/headers/vector.h:66-101 | starting from capacity 2, three pushes grow the capacity to 4 and reads return the pushed values in order; popping index 1 returns the second value and leaves [1, 3] |
| Vectors.PopSearchFirstOnlyScenario | src/headers/vector.h:78-87 | byte-wise removal takes only the first identical record; a later duplicate stays |
| Pcg32.Advance | src/third_party/pcg_basic.c:61-63 | the LCG step keeps the increment, and so keeps it odd or even |
| Pcg32.XorShifted | src/third_party/pcg_basic.c:65 | because the cast comes before the shift, the xor-shifted value is at most 31 |
| Pcg32.Rotation | src/third_party/pcg_basic.c:67 | the rotation amount, the top five bits of the old state, is at most 31 |
| Pcg32.Permute | src/third_party/pcg_basic.c:69 | with rotation 0 the output is the xor-shifted value; a zero xor-shifted value gives output 0 |
| Pcg32.Random | src/third_party/pcg_basic.c:58-70 | one draw leaves the generator one LCG step further on with the same increment; the value is the output permutation of the state before the step |
| Pcg32.Seed | src/third_party/pcg_basic.c:37-50 | seeding makes the increment initseq shifted left by one with the low bit set, which is odd, whatever the instance held before |
| Pcg32.Stream | src/third_party/pcg_basic.c:72-75 | n successive draws yield n values, and the first one is the first draw |
| Pcg32.Skip | src/third_party/pcg_basic.c:58-63 | any number of draws keeps the increment |
| Pcg32.Threshold | src/third_party/pcg_basic.c:93 | the rejection threshold for bound > 0 is below the bound, and the draws at or above it cover a whole number of copies of [0, bound) |
| Pcg32.BoundedRand | src/third_party/pcg_basic.c:77-108 | any accepted bounded draw lies in [0, bound), and the instance keeps its increment |
| Pcg32.FirstAccepted | src/third_party/pcg_basic.c:102-104 | the position found is within the budget, the draw there is at or above the threshold, and every earlier draw was below it |
| Pcg32.BoundedRandGivesUp | src/third_party/pcg_basic.c:102-107 | the bounded draw finds no value exactly when every draw within the budget falls below the threshold |
| Pcg32.BoundedRandFirstAccepted | src/third_party/pcg_basic.c:102-106 | the bounded draw is the first draw at or above the threshold reduced modulo the bound, and it leaves the instance just after that draw |
| Pcg32.Reduced | src/third_party/pcg_basic.c:103-105 | the next raw draw reduced modulo the bound lies in [0, bound) |
| Pcg32.AcceptedAt | src/third_party/pcg_basic.c:102-106 | the bounded result when draw k is the accepted one lies in [0, bound), and the instance after it keeps the increment |
| Pcg32.StreamIndexIsSkip | src/third_party/pcg_basic.c:58-70 | value j of the stream is the draw taken after skipping j draws |
| Pcg32.SeededIncStaysOdd | src/third_party/pcg_basic.h:43 | after seeding, the increment is odd and stays odd through any number of draws |
| Pcg32.InitializerIncOdd | src/third_party/pcg_basic.h:53 | the static initialiser, and so the default instance before any call, has an odd increment |
| Pcg32.SeedDeterministic | src/third_party/pcg_basic.c:37-50 | two instances seeded with the same pair become equal and produce the same stream, whatever they held before |
| Pcg32.ZeroIsFixedPoint | src/third_party/pcg_basic.c:61-69 | from the all-zero state a draw returns 0 and leaves the state all-zero |
| Pcg32.ZeroStreamIsZero | src/player.c:11 | the never-seeded combat generator stays all-zero, and every value it produces is 0 |
| Pcg32.StreamSplits | src/third_party/pcg_basic.c:72-75 | n + m draws are the first n draws followed by m draws from where they left off, so successive calls on the shared default instance form one stream |
| Weapons.Initialize | src/weapon.c:9-25 | succeeds exactly for a non-empty name with positive health and damage; on failure the weapon is unchanged; on success the name text, health and damage equal the arguments |
| Weapons.Use | src/weapon.c:54-65 | amount 0 is a no-op; with health above the amount, health falls by exactly the amount; otherwise health wraps to 2^32 minus the amount; name and damage are kept |
| Weapons.Repair | src/weapon.c:67-74 | amount 0 is a no-op; otherwise health grows modulo 2^32 and nothing else changes |
| Weapons.Enhance | src/weapon.c:76-83 | amount 0 is a no-op; otherwise damage grows modulo 2^32 and nothing else changes |
| Weapons.Deinitialize | src/weapon.c:107-117 | a weapon with no name buffer is left alone; otherwise every field is cleared |
| Weapons.InitializeYieldsNamedWeapon | src/weapon.c:85-105 | a freshly initialised weapon matches its own name under the name comparator and equals itself |
| Weapons.IsEqualIsEquivalence | src/weapon.c:96-105 | weapon equality is reflexive on named weapons and symmetric; equal weapons match the same name keys |
| Weapons.SameTextDifferentBuffer | src/weapon.c:85-105 | two weapons with the same text in different buffers are equal and match the same name, yet are different records |
| Weapons.DeinitializeIdempotent | src/weapon.c:109-111 | releasing a weapon twice is the same as releasing it once |
| Weapons.UseNeverZeroes | src/weapon.c:60-64 | a positive amount never leaves health at 0: it wraps instead of saturating |
| Weapons.UseUndoesRepair | src/weapon.c:54-74 | using a weapon by the amount it was just repaired by restores it, as long as nothing wrapped |
| Weapons.EnhanceComposes | src/weapon.c:76-83 | two enhancements add modulo 2^32 and commute |
| Armors.Initialize | src/armor.c:10-27 | succeeds exactly for a non-empty name with 0 < health <= maximum and positive resistance; on failure the armor is unchanged; on success the armor is valid and carries the arguments |
| Armors.EnhanceArmor | src/armor.c:47-54 | resistance never falls: it becomes the larger of the old and new values, and validity is kept |
| Armors.RepairArmor | src/armor.c:56-68 | amount 0, or an armor at its maximum, is a no-op; otherwise health ends at most the maximum, and without a wrap it is min(health + amount, maximum) |
| Armors.AddArmor | src/armor.c:92-110 | the name is the first name, a colon, then the second name; health, maximum and resistance are each summed modulo 2^32 |
| Armors.AddArmorKeepsValid | src/armor.c:107-109 | adding two valid armors gives a valid armor whose health is the plain sum, as long as no sum wraps |
| Armors.AddArmorWrapBreaksValid | src/armor.c:108 | a maximum that wraps leaves the sum of two valid armors with health 20 above maximum 9 |
| Armors.Deinitialize | src/armor.c:112-123 | an armor with no name buffer is left alone; otherwise every field is cleared |
| Armors.RepairKeepsHealthBelowMax | src/armor.c:62-67 | repair keeps health <= maximum, and keeps the armor valid when the sum does not wrap |
| Armors.IsEqualReflexiveOnlyAtFullHealth | src/armor.c:86-89 | because the maximum is compared with the other armor's health, an armor equals itself exactly when it is at full health |
| Armors.IsEqualNotReflexiveNorSymmetric | src/armor.c:80-90 | the starting armor at 10 of 100 is not equal to itself, and a pair exists that is equal one way round but not the other |
| Armors.RepairCanLowerHealth | src/armor.c:63-66 | a repair that wraps past 2^32 lowers the health, even to 0 |
| Armors.DeinitializeIdempotent | src/armor.c:114-116 | releasing an armor twice is the same as releasing it once |
| Armors.EnhanceArmorKeepsMaximum | src/armor.c:49-53 | enhancements commute, are idempotent, and keep the largest resistance seen |
| Players.Initialize | src/player.c:13-31 | succeeds exactly for a non-empty name and a positive health; on failure the player is unchanged; on success it copies the weapons and armor and marks the armor as worn |
| Players.Crit | src/player.c:92-102 | zero damage or resistance yields 0 with no draw; otherwise one draw is taken; a critical draw yields floor(1.5 * (damage / resistance)) with integer division inside, any other yields damage / resistance |
| Players.SelectedWeapon | src/player.c:106-110 | a weapon is selected exactly when the name is non-empty, the target is alive, the weapons block exists and some carried weapon has that name; the one selected is the leftmost such weapon |
| Players.Attack | src/player.c:104-115 | an empty name, a dead target or an unknown weapon is a no-op; otherwise only the target's health changes, it never rises, and it falls by the rolled damage, stopping at 0 |
| Players.Heal | src/player.c:117-124 | amount 0 is a no-op; otherwise health grows modulo 2^32 with no maximum, and nothing else changes |
| Players.EquipArmor | src/player.c:126-134 | the player is unchanged exactly when already wearing armor; otherwise it wears the given armor; weapons, name and health are kept |
| Players.UpdateWeapons | src/player.c:68-83 | "add" is push_back, "remove" is pop_search, and any other tag, an empty tag or NULL is a no-op; only the weapons change |
| Players.AddPlayer | src/player.c:136-172 | the name is the two names joined by a colon; health is the 32-bit sum; the armor is exactly `armor_add_armor` of the two armors and is worn; the output's weapons are not replaced |
| Players.Deinitialize | src/player.c:174-185 | a player with no name buffer is left alone; otherwise every field is cleared, the armor and the weapons header included |
| Players.DeinitializeIdempotent | src/player.c:174-185 | releasing a player twice equals releasing it once |
| Players.UnseededCombatAlwaysCrits | src/player.c:97-100 | on the never-seeded combat generator every hit with positive damage and resistance is critical, and the generator stays all-zero |
| Players.UnseededCritIsCritical | src/player.c:92-102 | on the never-seeded generator `crit` always deals floor(1.5 * (damage / resistance)), 0 when either is 0, and leaves the generator all-zero |
| Players.UnseededAttackDealsCritical | src/player.c:97-113 | from the never-seeded generator every hit deals floor(1.5 * (damage / resistance)), health falls by that much or to 0, and the generator stays all-zero |
| Players.AddPlayerKeepsArmorValid | src/player.c:170-171 | merging two players with valid armors yields a valid worn armor when no armor sum wraps, and the joined name has both lengths plus one |
| Players.AddThenRemoveRestoresWeapons | src/player.c:74-81 | adding a weapon the player did not carry and then removing it restores the number of weapons, and at a positive element size the weapons themselves |
| Players.RemoveNeedsSameBuffer | src/player.c:79-81 | removing a weapon that is equal in text, health and damage but lives in another name buffer changes nothing at a positive element size; at element size 0 it removes the carried one |
| Players.HealComposes | src/player.c:117-124 | two heals add modulo 2^32 and commute |
| Players.EquipOnlyOnce | src/player.c:126-134 | a freshly initialised player already wears armor, so equipping it is a no-op, and only the first of two equips takes effect |
| Games.Initialize | src/game.c:12-22 | always returns false; the game gets a copy of the shared vector, which is initialised when capacity and player size are positive and unchanged otherwise |
| Games.InsertPlayer | src/game.c:24-35 | succeeds; the count grows by one; the last slot is the player; earlier players are kept; size <= capacity is kept |
| Games.RemovePlayer | src/game.c:37-48 | succeeds exactly when some stored record is identical to the player, or at element size 0 when any player is stored; it then removes the first such record (slot 0 at element size 0) and the later players move one slot left in order; on failure the game is unchanged |
| Games.GetWinner | src/game.c:50-57 | with no block, no players or element size 0 the caller's record is returned untouched; otherwise the result is the player in slot 0 |
| Games.TotalPlayers | src/game.c:59-62 | the player count is the size of the players vector |
| Games.Deinitialize | src/game.c:64-72 | a game with no block is left alone; otherwise the vector is released and the whole game is zeroed, element size included |
| Games.InsertAll | src/game.c:24-35 | inserting a sequence of players one by one appends exactly that sequence to the roster, keeping the element size and the block |
| Games.WinnerIsFirstInserted | src/game.c:50-57 | after the first insertion into an empty game, any number of later insertions leave that first player as the winner; at element size 0 the caller's record stays untouched |
| Games.WinnerAfterFirstRemoved | src/game.c:37-57 | in a game holding p followed by other players (the roster `InsertAll` builds), removing p succeeds and the winner becomes the next player inserted, the earliest insertion still present |
| Games.InitializeGivesEmptyGame | src/game.c:12-22 | creating a game from the zero-initialised file-scope vector with positive capacity gives an empty valid game with the block and player size; capacity 0 leaves the game zeroed |
| Games.ZeroCapacityGameMatchesAnyone | src/game.c:12-57 | after `create_game(0)` the vector has element size 0: one insertion is counted, the winner is never copied out, and removing any player whatever empties the game |
| Games.DeinitializeIdempotent | src/game.c:64-72 | releasing a game twice equals releasing it once, and a released game is valid and empty |
| Games.RemoveUndoesInsert | src/game.c:24-48 | inserting a player not yet stored and then removing it succeeds and restores the count, and at a positive element size the roster |
| Games.ChangedPlayerIsNotRemoved | src/game.c:43-47 | in any game, a player healed after insertion no longer matches its stored copy, so removal fails and the game is unchanged, exactly when the element size is positive |
| Games.EmptyWinnerScenario | src/game.c:52-56 | after inserting and removing the only player, the count is 0 and the winner record comes back with no name |
| Games.FullMatchScenario | src/main.c:56-102 | in the reference match a Sword of damage 10 against resistance 1 lands a critical hit: 100 falls to 85, the combat generator stays all-zero, removing the hit copy fails, and the winner slot holds the first inserted player |

## Left out

- The terminal driver (`src/main.c`) is not modelled: prompts, `printf`/`fgets` and `parse_int`. Only its match sequence appears, as `Games.FullMatchScenario`.
- `src/compatibility.c` is not part of this model. Its `strcpy_s`/`strcat_s` copies are exact here, because every destination buffer is sized `strlen + 1`.
- The getters (`weapon_get_*`, `armor_get_*`, `player_get_*`) and the printers (`player_get_stats`, `armor_print_stats`) are not modelled: they only read fields or print.
- Allocation failure is not modelled. `malloc`/`realloc` always succeed, and their addresses are parameters. So the error paths after a failed allocation are absent, including `push_back` having already doubled `capacity` before `realloc` fails. Leaks and `free` are not modelled either.
- `size_t` overflow is not modelled, e.g. `capacity * 2` or `e_size * capacity`. Sizes and capacities are unbounded naturals.
- NULL struct-pointer arguments are not modelled. The model passes values, so checks like `!vec`, `!w`, `!p` and `!g` have no counterpart. The same goes for a NULL search key or comparator in `vector_search_element`.
- `strcmp` on a stored NULL name is undefined behaviour in C. `CTypes.TextEquals` is false for it.
- Aliasing is not modelled. Copying a player copies its `weapons` vector header, so two copies share one block in C, while the model gives each copy its own slots.
- Struct padding seen by `memcmp` is not modelled: byte equality is field-wise equality of the record.
- Floating point: the `* 1.5` in `crit` is the exact integer `(3 * base) / 2`. `Players.Crit` requires that value to be below 2^32, because converting a larger double to `unsigned int` is undefined.
- Pcg32.BoundedRand: the endless retry loop becomes a budget of `fuel` draws, returning `None` when the budget runs out. Uniformity of the draws is not stated.
- Pcg32.Permute: the output is not proved equal to the 32-bit right-rotation of `xorshifted` for every rotation amount, only for rotation 0 and for a zero input. A general rotation identity over symbolic amounts is beyond the solver budget.
- Pcg32.Seed: the closed form of the seeded state is not stated. That form is one step from 0, plus `initstate`, then one more step, and the function body follows these two steps literally. An equation over symbolic 64-bit products is beyond the solver budget.
- `pcg32_srandom`, `pcg32_random` and `pcg32_boundedrand` have no members of their own. Each one is the `_r` function applied to `pcg32_global`. That instance is threaded as an `Rng` value starting at `Pcg32.INITIALIZER`, so the wrappers are `Pcg32.Seed`, `Pcg32.Random` and `Pcg32.BoundedRand`.
- Games.RemovePlayer: compares the stored players' weapons by value. `memcmp` over `struct player` sees only the weapons vector header (block, element size, size, capacity), and the slots behind it are shared with every copy. So after a weapon is removed from a player and another added, C still finds the stored copy identical, while the model does not. This follows from leaving aliasing out.
- Players.AddPlayer: the merged weapons vector is not modelled. `player_add_player` builds it and never stores it.
- Players.Attack: the wear on the weapon is not modelled. `weapon_use(damage / 10, &w)` acts on a local copy that is discarded, so nothing observable changes.
- Vectors.Identical: a positive element size is taken to be the full width of the record. `vector_initialize` accepts any positive size, and with one smaller than the record `memcmp` would accept records that differ past the compared prefix, and `memcpy` would copy only that prefix. The program passes `sizeof` the record at both call sites (src/game.c:18, src/player.c:154).
- Vectors.SearchElement: with element size 0 the comparator is handed a pointer to a 0-byte slot and reads past it, which is undefined behaviour in C; the model applies the comparator to the stored value and copies that value out.
- Vectors.PushBack: with element size 0, glibc's `realloc` of a non-NULL block to 0 bytes frees it and returns NULL, which the program reports as a failure after doubling the capacity. The model's allocator never fails, so this push succeeds like any other.
- Vectors.Initialize: when a vector that still has live slots is initialised again, `size` is kept but the slots then lie in the fresh block, where slot 0 is zeroed and the rest are indeterminate. The model keeps the old slot values. For the zero-initialised vectors the program passes in, the two agree.

=== FILE: armors.dfy ===
/**
  `struct armor`: a resistance that divides incoming damage, a health with
  its maximum, and an owned name buffer; the numbers are 32-bit
  `unsigned int` with wrap-around.
 */
module Armors {

  import opened CTypes

  datatype Armor = Armor(resistance: u32, health: u32, maxHealth: u32, name: CStr)

  /** A zero-initialised `struct armor` (`= {0}`), also the state `free_armor` leaves. */
  const ZEROED: Armor := Armor(0, 0, 0, Null)

  /** The invariant a successful initialisation establishes. */
  predicate Valid(a: Armor) {
    a.name.Buf? && 0 < a.health <= a.maxHealth && a.resistance > 0
  }

  /** A boolean status together with the armor the call leaves behind. */
  datatype Updated = Updated(ok: bool, armor: Armor)

  /**
    `create_armor` / `armor_initialize`: rejects a NULL or empty name, a zero
    health, a zero maximum, a health above the maximum or a zero resistance
    without touching `a`; otherwise copies the name into the buffer at `addr`
    and sets the numbers.
   */
  function Initialize(name: CharPtr, health: u32, maxHealth: u32, resistance: u32, a: Armor, addr: nat): (r: Updated)
    ensures r.ok <==> !NullOrEmpty(name) && health > 0 && maxHealth > 0 && health <= maxHealth && resistance > 0
    ensures !r.ok ==> r.armor == a
    ensures r.ok ==> Valid(r.armor) && TextEquals(r.armor.name, name) && r.armor.name.addr == addr
    ensures r.ok ==> r.armor.health == health && r.armor.maxHealth == maxHealth && r.armor.resistance == resistance
  {
    if NullOrEmpty(name) || health == 0 || maxHealth == 0 || health > maxHealth || resistance == 0 then Updated(false, a)
    else Updated(true, Armor(resistance, health, maxHealth, Buf(addr, name.value)))
  }

  /** `armor_enhance_armor`: the resistance only ever rises, to the new value when that is larger. */
  function EnhanceArmor(newResistance: u32, a: Armor): (r: Armor)
    ensures r.resistance >= a.resistance && r.resistance >= newResistance
    ensures r.resistance == a.resistance || r.resistance == newResistance
    ensures r.health == a.health && r.maxHealth == a.maxHealth && r.name == a.name
    ensures Valid(a) ==> Valid(r)
  {
    if newResistance <= a.resistance then a else a.(resistance := newResistance)
  }

  /**
    `armor_repair_armor`: a zero amount, or an armor already at its maximum,
    is left alone. Otherwise the 32-bit sum of health and amount is taken and
    clamped to the maximum; when the sum wraps the health can fall.
   */
  function RepairArmor(amount: u32, a: Armor): (r: Armor)
    ensures amount == 0 || a.health == a.maxHealth ==> r == a
    ensures amount > 0 && a.health != a.maxHealth ==> r.health <= r.maxHealth
    ensures amount > 0 && a.health != a.maxHealth && a.health + amount < UINT32_MODULUS ==>
      r.health == if a.health + amount < a.maxHealth then a.health + amount else a.maxHealth
    ensures r.maxHealth == a.maxHealth && r.resistance == a.resistance && r.name == a.name
  {
    if amount == 0 then a
    else if a.health == a.maxHealth then a
    else
      var sum := AddU32(a.health, amount);
      a.(health := if sum > a.maxHealth then a.maxHealth else sum)
  }

  /**
    `armor_is_equal` as written: the third comparison sets `a1`'s maximum
    against `a2`'s health, not against `a2`'s maximum.
   */
  predicate IsEqual(a1: Armor, a2: Armor) {
    && a1.name.Buf? && a2.name.Buf?
    && a1.name.text == a2.name.text
    && a1.health == a2.health
    && a1.maxHealth == a2.health
    && a1.resistance == a2.resistance
  }

  /**
    `armor_add_armor`: the name is the first name, a colon and the second
    name, in a buffer at `addr`; each number is the 32-bit sum. Both names
    must exist, since `strlen` reads them.
   */
  function AddArmor(a1: Armor, a2: Armor, addr: nat): (r: Armor)
    requires a1.name.Buf? && a2.name.Buf?
    ensures r.name.Buf? && r.name.addr == addr
    ensures |r.name.text| == |a1.name.text| + 1 + |a2.name.text|
    ensures r.name.text[..|a1.name.text|] == a1.name.text
    ensures r.name.text[|a1.name.text|] == ':'
    ensures r.name.text[|a1.name.text| + 1..] == a2.name.text
    ensures r.health == (a1.health + a2.health) % UINT32_MODULUS
    ensures r.maxHealth == (a1.maxHealth + a2.maxHealth) % UINT32_MODULUS
    ensures r.resistance == (a1.resistance + a2.resistance) % UINT32_MODULUS
  {
    Armor(AddU32(a1.resistance, a2.resistance), AddU32(a1.health, a2.health),
          AddU32(a1.maxHealth, a2.maxHealth), Buf(addr, a1.name.text + ":" + a2.name.text))
  }

  /** `free_armor` / `armor_deinitialize`: an armor without a name buffer is left alone. */
  function Deinitialize(a: Armor): (r: Armor)
    ensures a.name.Null? ==> r == a
    ensures a.name.Buf? ==> r.name.Null? && r.health == 0 && r.maxHealth == 0 && r.resistance == 0
  {
    if a.name.Null? then a else ZEROED
  }

  /**
    Repair keeps `health <= maxHealth`, but not a positive health: a sum
    that wraps to exactly 2^32 leaves the armor at 0.
   */
  lemma RepairKeepsHealthBelowMax(amount: u32, a: Armor)
    requires a.health <= a.maxHealth
    ensures RepairArmor(amount, a).health <= RepairArmor(amount, a).maxHealth
    ensures Valid(a) && a.health + amount < UINT32_MODULUS ==> Valid(RepairArmor(amount, a))
  {
  }

  /**
    Because of the typo, an armor equals itself exactly when it is at full
    health, and the relation is not symmetric.
   */
  lemma IsEqualReflexiveOnlyAtFullHealth(a: Armor)
    requires a.name.Buf?
    ensures IsEqual(a, a) <==> a.health == a.maxHealth
  {
  }

  /** The starting armor of the reference driver, at 10 of 100, is not equal to itself. */
  lemma IsEqualNotReflexiveNorSymmetric()
    ensures var basic := Armor(1, 10, 100, Buf(7, "BASIC"));
      !IsEqual(basic, basic)
    ensures var a1 := Armor(1, 5, 5, Buf(7, "A"));
      var a2 := Armor(1, 5, 9, Buf(8, "A"));
      IsEqual(a1, a2) && !IsEqual(a2, a1)
  {
  }

  /** A repair that wraps past 2^32 lowers the health instead of raising it, possibly to 0. */
  lemma RepairCanLowerHealth()
    ensures var a := Armor(1, 10, 100, Buf(7, "BASIC"));
      RepairArmor(0xFFFF_FFFF, a).health == 9 && RepairArmor(0xFFFF_FFF6, a).health == 0
  {
  }

  /** Adding two valid armors gives a valid armor, as long as no sum wraps. */
  lemma AddArmorKeepsValid(a1: Armor, a2: Armor, addr: nat)
    requires Valid(a1) && Valid(a2)
    requires a1.maxHealth + a2.maxHealth < UINT32_MODULUS
    requires a1.resistance + a2.resistance < UINT32_MODULUS
    ensures Valid(AddArmor(a1, a2, addr))
    ensures AddArmor(a1, a2, addr).health == a1.health + a2.health
  {
  }

  /** A maximum that wraps breaks validity: the summed health exceeds the summed maximum. */
  lemma AddArmorWrapBreaksValid()
    ensures var a1 := Armor(1, 10, 0xFFFF_FFFF, Buf(1, "A"));
      var a2 := Armor(1, 10, 10, Buf(2, "B"));
      && Valid(a1) && Valid(a2)
      && AddArmor(a1, a2, 3).maxHealth == 9
      && AddArmor(a1, a2, 3).health == 20
      && !Valid(AddArmor(a1, a2, 3))
  {
  }

  /** Releasing twice is harmless. */
  lemma DeinitializeIdempotent(a: Armor)
    ensures Deinitialize(Deinitialize(a)) == Deinitialize(a)
  {
  }

  /** Enhancements keep the largest resistance seen, whatever their order. */
  lemma EnhanceArmorKeepsMaximum(x: u32, y: u32, a: Armor)
    ensures EnhanceArmor(x, EnhanceArmor(y, a)) == EnhanceArmor(y, EnhanceArmor(x, a))
    ensures EnhanceArmor(x, EnhanceArmor(x, a)) == EnhanceArmor(x, a)
    ensures var m := EnhanceArmor(x, EnhanceArmor(y, a)).resistance;
      m >= a.resistance && m >= x && m >= y && (m == a.resistance || m == x || m == y)
  {
  }
}

=== FILE: ctypes.dfy ===
/**
  C-level vocabulary shared by every module of the model: 32-bit unsigned
  arithmetic with wrap-around, optional values, and the two ways a `char *`
  appears in the program (a borrowed argument, or an owned heap buffer).
 */
module CTypes {

  /** 2^32: `unsigned int` arithmetic is carried out modulo this value. */
  const UINT32_MODULUS: int := 0x1_0000_0000

  /** The values of a 32-bit `unsigned int`. */
  type u32 = x: int | 0 <= x < 0x1_0000_0000

  /** `a + b` on `unsigned int`: the mathematical sum reduced modulo 2^32. */
  function AddU32(a: u32, b: u32): (r: u32)
    ensures a + b < UINT32_MODULUS ==> r == a + b
    ensures a + b >= UINT32_MODULUS ==> r == a + b - UINT32_MODULUS && r < a
  {
    (a + b) % UINT32_MODULUS
  }

  /** `a - b` on `unsigned int`: the mathematical difference reduced modulo 2^32. */
  function SubU32(a: u32, b: u32): (r: u32)
    ensures b <= a ==> r == a - b
    ensures a < b ==> r == UINT32_MODULUS + a - b
  {
    (a - b) % UINT32_MODULUS
  }

  datatype Option<T> = None | Some(value: T)

  /** A borrowed `const char *` argument: `None` is the NULL pointer; the text, as for `CStr`, is NUL-free. */
  type CharPtr = Option<string>

  /**
    An owned, heap-allocated name. The address is what `memcmp` sees when a
    record holding the pointer is compared byte-wise; the text is what
    `strcmp` sees. Two buffers with the same text at different addresses are
    different values. Texts hold no NUL character: the text is what comes
    before the terminator, so `strlen`, `strcmp` and `name[0] == '\0'` all
    see exactly the sequence.
   */
  datatype CStr = Null | Buf(addr: nat, text: string)

  /** `!s || s[0] == '\0'`: the argument is NULL or the empty string. */
  predicate NullOrEmpty(s: CharPtr) {
    s.None? || |s.value| == 0
  }

  /** `strcmp(a, b) == 0` on an owned buffer and a borrowed string. */
  predicate TextEquals(a: CStr, b: CharPtr) {
    a.Buf? && b.Some? && a.text == b.value
  }
}

=== FILE: games.dfy ===
/**
  `struct game`: a vector of players stored by value. Initialisation goes
  through the file-scope vector `players`, which is an explicit argument and
  result here (a zero-initialised vector before the first call).
 */
module Games {

  import opened CTypes
  import Vectors
  import Weapons
  import Armors
  import Players
  import Pcg32

  datatype Game = Game(players: Vectors.Vector<Players.Player>)

  /** A zero-initialised `struct game` (`= {0}`), also the state `free_game` leaves. */
  const ZEROED: Game := Game(Vectors.Zeroed())

  /** What `create_game` returns, the game it fills in, and the file-scope vector afterwards. */
  datatype Init = Init(ok: bool, game: Game, shared: Vectors.Vector<Players.Player>)

  /**
    `create_game` / `game_initialize`: initialises the file-scope vector with
    the given capacity and `sizeof(struct player)` (`playerSize`), copies it
    into the game whether or not that succeeded, and reports failure on
    every path.
   */
  function Initialize(initialCapacity: u32, g: Game, shared: Vectors.Vector<Players.Player>,
                      playerSize: nat, block: nat): (r: Init)
    ensures !r.ok
    ensures r.game.players == r.shared
    ensures initialCapacity == 0 || playerSize == 0 ==> r.shared == shared
    ensures initialCapacity > 0 && playerSize > 0 ==>
      r.shared.items == Vectors.Block(block) && r.shared.capacity == initialCapacity &&
      r.shared.eSize == playerSize && r.shared.elems == shared.elems
  {
    var shared' := Vectors.Initialize(initialCapacity, playerSize, shared, block).vec;
    Init(false, Game(shared'), shared')
  }

  /** A boolean status together with the game the call leaves behind. */
  datatype Updated = Updated(ok: bool, game: Game)

  /** `game_insert_player`: appends a copy of the player (the block is what `realloc` returns if the vector grows). */
  function InsertPlayer(p: Players.Player, g: Game, block: nat): (r: Updated)
    ensures r.ok
    ensures TotalPlayers(r.game) == TotalPlayers(g) + 1
    ensures r.game.players.elems[TotalPlayers(g)] == p
    ensures r.game.players.elems[..TotalPlayers(g)] == g.players.elems
    ensures g.players.Valid() ==> r.game.players.Valid()
  {
    var grown := Vectors.PushBack(g.players, p, block);
    assert grown.elems[..TotalPlayers(g)] == g.players.elems;
    Updated(true, Game(grown))
  }

  /**
    `game_remove_player`: removes the first stored player `memcmp` reports
    identical to `p` and moves the later players one slot left; fails and
    changes nothing when none matches. With a positive element size that is
    the first player equal to `p` in every field, the name buffer included
    (the weapons are compared as values, where the C code compares the
    vector header only, which the model does not separate from the slots).
    A game whose vector has element size 0 (after `create_game(0)`) stores
    0-byte records, so any player matches slot 0.
   */
  function RemovePlayer(p: Players.Player, g: Game): (r: Updated)
    ensures r.ok <==> p in g.players.elems || (g.players.eSize == 0 && TotalPlayers(g) > 0)
    ensures !r.ok ==> r.game == g
    ensures r.ok && g.players.eSize > 0 ==>
      r.game.players == g.players.(elems := Vectors.RemoveAt(g.players.elems, Vectors.FirstEqual(g.players.elems, p)))
    ensures r.ok && g.players.eSize == 0 ==> r.game.players == g.players.(elems := g.players.elems[1..])
  {
    var removed := Vectors.PopSearch(g.players, p);
    Updated(removed.ok, Game(removed.vec))
  }

  /**
    `game_get_winner`: leaves the caller's `winner` as it was when the
    game's vector has no block or no players; otherwise copies slot 0 into
    it, which copies nothing when the element size is 0.
   */
  function GetWinner(winner: Players.Player, g: Game): (r: Players.Player)
    ensures g.players.items.NullPtr? || TotalPlayers(g) == 0 || g.players.eSize == 0 ==> r == winner
    ensures g.players.items.Block? && TotalPlayers(g) > 0 && g.players.eSize > 0 ==> r == g.players.elems[0]
  {
    if g.players.items.NullPtr? || g.players.Size() == 0 then winner
    else Vectors.GetElement(g.players, 0, Some(winner)).value
  }

  /** `game_get_total_players`: the size of the players vector. */
  function TotalPlayers(g: Game): (n: nat)
    ensures n == |g.players.elems|
  {
    g.players.Size()
  }

  /**
    `free_game` / `game_deinitialize`: a game whose vector has no block is
    left alone; otherwise the vector is released and the whole struct zeroed.
   */
  function Deinitialize(g: Game): (r: Game)
    ensures g.players.items.NullPtr? ==> r == g
    ensures g.players.items.Block? ==> r == ZEROED
  {
    if g.players.items.NullPtr? then g else ZEROED
  }

  /** Inserts the players of `ps` one after another, in order. */
  function InsertAll(g: Game, ps: seq<Players.Player>, block: nat): (r: Game)
    ensures r.players.elems == g.players.elems + ps
    ensures r.players.eSize == g.players.eSize
    ensures g.players.items.Block? ==> r.players.items.Block?
    decreases |ps|
  {
    if |ps| == 0 then g
    else InsertAll(InsertPlayer(ps[0], g, block).game, ps[1..], block)
  }

  /**
    The winner is the first player inserted into an empty game: however
    many players are inserted after it, `game_get_winner` copies it out.
    In a game of element size 0 nothing is copied and the caller's record
    stays as it was.
   */
  lemma WinnerIsFirstInserted(p: Players.Player, later: seq<Players.Player>, g: Game,
                              winner: Players.Player, block: nat)
    requires TotalPlayers(g) == 0
    requires g.players.items.Block? || g.players.capacity == 0
    ensures g.players.eSize > 0 ==> GetWinner(winner, InsertAll(InsertPlayer(p, g, block).game, later, block)) == p
    ensures g.players.eSize == 0 ==> GetWinner(winner, InsertAll(InsertPlayer(p, g, block).game, later, block)) == winner
  {
  }

  /**
    Once the first player is removed, the winner is the next one inserted:
    the winner is the earliest insertion still in the game. The roster is
    the one `InsertAll` builds from `p` followed by `later`.
   */
  lemma WinnerAfterFirstRemoved(p: Players.Player, later: seq<Players.Player>, g: Game, winner: Players.Player)
    requires g.players.elems == [p] + later && g.players.items.Block? && g.players.eSize > 0
    requires |later| > 0 && p !in later
    ensures RemovePlayer(p, g).ok && GetWinner(winner, RemovePlayer(p, g).game) == later[0]
  {
    assert Vectors.FirstEqual(g.players.elems, p) == 0;
    assert Vectors.RemoveAt(g.players.elems, 0) == later;
  }

  /**
    Creating a game from the zero-initialised file-scope vector with a
    positive capacity gives an empty, valid game with a block and the player
    size; a capacity of 0 leaves the game zeroed.
   */
  lemma InitializeGivesEmptyGame(initialCapacity: u32, g: Game, playerSize: nat, block: nat)
    ensures var r := Initialize(initialCapacity, g, Vectors.Zeroed(), playerSize, block).game;
      initialCapacity > 0 && playerSize > 0 ==>
        r.players.Valid() && TotalPlayers(r) == 0 && r.players.items == Vectors.Block(block) && r.players.eSize == playerSize
    ensures initialCapacity == 0 || playerSize == 0 ==> Initialize(initialCapacity, g, Vectors.Zeroed(), playerSize, block).game == ZEROED
  {
  }

  /**
    After `create_game(0, &g)` the game's vector has element size 0: the
    first insertion stores a 0-byte record, removing any player whatever
    succeeds, and the winner is never copied out.
   */
  lemma ZeroCapacityGameMatchesAnyone(p: Players.Player, q: Players.Player, winner: Players.Player,
                                      playerSize: nat, block: nat)
    ensures var g := Initialize(0, ZEROED, Vectors.Zeroed(), playerSize, block).game;
      var one := InsertPlayer(p, g, block).game;
      && TotalPlayers(one) == 1
      && GetWinner(winner, one) == winner
      && RemovePlayer(q, one).ok && TotalPlayers(RemovePlayer(q, one).game) == 0
  {
  }

  /** Releasing a game twice is harmless: the second call leaves the zeroed game as it is. */
  lemma DeinitializeIdempotent(g: Game)
    ensures Deinitialize(Deinitialize(g)) == Deinitialize(g)
    ensures g.players.items.Block? ==> Deinitialize(g).players.Valid() && TotalPlayers(Deinitialize(g)) == 0
  {
  }

  /**
    Inserting a player not yet stored and removing it again restores the
    number of players, and at a positive element size the roster itself.
   */
  lemma {:induction false} RemoveUndoesInsert(p: Players.Player, g: Game, block: nat)
    requires p !in g.players.elems
    ensures RemovePlayer(p, InsertPlayer(p, g, block).game).ok
    ensures TotalPlayers(RemovePlayer(p, InsertPlayer(p, g, block).game).game) == TotalPlayers(g)
    ensures g.players.eSize > 0 ==> RemovePlayer(p, InsertPlayer(p, g, block).game).game.players.elems == g.players.elems
  {
    var s := g.players.elems;
    var inserted := InsertPlayer(p, g, block).game.players.elems;
    assert inserted == s + [p];
    assert Vectors.FirstEqual(inserted, p) == |s|;
    assert Vectors.RemoveAt(inserted, |s|) == s;
  }

  /**
    A player whose health changed after insertion is no longer identical to
    its stored copy, so removing it fails and the game is unchanged; only a
    game of element size 0, where `memcmp` compares nothing, removes it.
   */
  lemma ChangedPlayerIsNotRemoved(p: Players.Player, amount: u32, g: Game, block: nat)
    requires 0 < amount && p.health + amount < UINT32_MODULUS
    requires Players.Heal(amount, p) !in g.players.elems
    ensures var inserted := InsertPlayer(p, g, block).game;
      var healed := Players.Heal(amount, p);
      g.players.eSize > 0 ==> !RemovePlayer(healed, inserted).ok && RemovePlayer(healed, inserted).game == inserted
    ensures RemovePlayer(Players.Heal(amount, p), InsertPlayer(p, g, block).game).ok <==> g.players.eSize == 0
  {
    var inserted := InsertPlayer(p, g, block).game;
    assert inserted.players.elems == g.players.elems + [p];
  }

  /**
    A game whose only player was inserted and removed again has no winner:
    the caller's zeroed record comes back with no name.
   */
  lemma EmptyWinnerScenario(p: Players.Player, shared: Vectors.Vector<Players.Player>, playerSize: nat)
    requires shared == Vectors.Zeroed() && playerSize > 0
    ensures var g0 := Initialize(2, ZEROED, shared, playerSize, 10).game;
      var g1 := InsertPlayer(p, g0, 11).game;
      var g2 := RemovePlayer(p, g1);
      g2.ok && TotalPlayers(g2.game) == 0 && GetWinner(Players.ZEROED, g2.game).name.Null?
  {
    var g0 := Initialize(2, ZEROED, shared, playerSize, 10).game;
    var g1 := InsertPlayer(p, g0, 11).game;
    assert g1.players.elems == [p];
  }

  /**
    The reference match: an enemy with a Sword (damage 10) attacks a player
    at health 100 whose armor has resistance 1. The unseeded combat
    generator makes the hit critical, so the player drops to 85; the stored
    copy of the player in the game then no longer matches, and the winner
    slot still holds the first inserted record.
   */
  lemma FullMatchScenario()
    ensures
      var fist := Weapons.Weapon(Buf(1, "Fist"), 100, 8);
      var sword := Weapons.Weapon(Buf(2, "Sword"), 100, 10);
      var basic := Armors.Armor(1, 10, 100, Buf(3, "BASIC"));
      var cataWeapons := Vectors.Vector(Vectors.Block(4), 16, 10, [fist]);
      var enemyWeapons := Vectors.Vector(Vectors.Block(5), 16, 10, [sword]);
      var cata := Players.Player(cataWeapons, basic, Buf(6, "cata"), 100, true);
      var enemy := Players.Player(enemyWeapons, basic, Buf(7, "enemy"), 50, true);
      var g := InsertPlayer(enemy, InsertPlayer(cata, Game(Vectors.Vector(Vectors.Block(8), 72, 2, [])), 9).game, 9).game;
      var hit := Players.Attack(enemy, Some("Sword"), cata, Players.COMBAT_RNG_START);
      && hit.target.health == 85
      && hit.rng == Players.COMBAT_RNG_START
      && !RemovePlayer(hit.target, g).ok
      && GetWinner(Players.ZEROED, g) == cata
  {
    var sword := Weapons.Weapon(Buf(2, "Sword"), 100, 10);
    var enemyWeapons := Vectors.Vector(Vectors.Block(5), 16, 10, [sword]);
    var found := Vectors.SearchElement(enemyWeapons, Some("Sword"), Weapons.NameCmp, true);
    assert Weapons.NameCmp(enemyWeapons.elems[0], Some("Sword"));
    assert Vectors.FirstMatch(enemyWeapons.elems, Some("Sword"), Weapons.NameCmp) == Some(0);
    assert found.copy == Some(sword);
    Pcg32.ZeroIsFixedPoint();
  }
}

=== FILE: pcg32.dfy ===
/**
  The PCG32 generator (XSH-RR output over a 64-bit LCG) as written in the
  program's third-party copy. Every operation is a pure function of the
  generator state; the process-wide default instance (`pcg32_global`) is an
  ordinary `Rng` value that the caller threads, starting at `INITIALIZER`.

  The copy differs from the canonical generator in one place: the cast to
  `uint32_t` is applied to the xor-shifted state BEFORE the shift by 27, so
  the permuted value keeps only five bits. The model follows the code.
 */
module Pcg32 {

  import opened CTypes

  /** `pcg32_random_t`: the LCG state and the stream increment (meant to be odd). */
  datatype Rng = Rng(state: bv64, inc: bv64)

  /** The LCG multiplier. */
  const MULTIPLIER: bv64 := 6364136223846793005

  /** `PCG32_INITIALIZER`, the static initial value of the default instance `pcg32_global`. */
  const INITIALIZER: Rng := Rng(0x853c49e6748fea9b, 0xda3e39cb94b95bdb)

  /** The all-zero instance, the value of a zero-initialised `pcg32_random_t` object. */
  const ZERO: Rng := Rng(0, 0)

  /** The header requires the increment to be odd at all times. */
  predicate IncOdd(rng: Rng) {
    rng.inc & 1 == 1
  }

  /** One LCG step modulo 2^64: the state is advanced, the increment is kept. */
  function Advance(rng: Rng): (r: Rng)
    ensures r.inc == rng.inc
    ensures IncOdd(rng) <==> IncOdd(r)
  {
    Rng(rng.state * MULTIPLIER + rng.inc, rng.inc)
  }

  /** `(uint32_t)((prior >> 18) ^ prior) >> 27`: truncated first, shifted second. */
  function XorShifted(prior: bv64): (x: bv32)
    ensures x <= 31
  {
    ((((prior >> 18) ^ prior) & 0xFFFF_FFFF) as bv32) >> 27
  }

  /** `prior >> 59`: the top five bits of the old state select the rotation. */
  function Rotation(prior: bv64): (rot: bv32)
    ensures rot <= 31
  {
    (prior >> 59) as bv32
  }

  /** The output permutation of the old state: `XorShifted` rotated right by `Rotation`. */
  function Permute(prior: bv64): (out: bv32)
    ensures Rotation(prior) == 0 ==> out == XorShifted(prior)
    ensures XorShifted(prior) == 0 ==> out == 0
  {
    var x := XorShifted(prior);
    var rot := Rotation(prior);
    (x >> rot) | (x << ((32 - rot) & 31))
  }

  /** What `pcg32_random_r` returns, together with the instance it leaves behind. */
  datatype Draw = Draw(value: bv32, next: Rng)

  /** `pcg32_random_r`: the output is taken from the state before the step. */
  function Random(rng: Rng): (d: Draw)
    ensures d.next == Advance(rng)
    ensures d.next.inc == rng.inc
    ensures d.value == Permute(rng.state)
    ensures Rotation(rng.state) == 0 ==> d.value == XorShifted(rng.state)
  {
    Draw(Permute(rng.state), Advance(rng))
  }

  /**
    `pcg32_srandom_r`: the state is cleared, the increment becomes
    `(initseq << 1) | 1`, the generator steps once, the seed is added and it
    steps again. The previous contents of `rng` play no part.
   */
  function Seed(rng: Rng, initstate: bv64, initseq: bv64): (r: Rng)
    ensures IncOdd(r)
    ensures r.inc == (initseq << 1) | 1
  {
    var s0 := Rng(0, (initseq << 1) | 1);
    var s1 := Random(s0).next;
    var s2 := Rng(s1.state + initstate, s1.inc);
    Random(s2).next
  }

  /** The first `n` outputs of an instance, each draw feeding the next. */
  function Stream(rng: Rng, n: nat): (s: seq<bv32>)
    ensures |s| == n
    ensures n > 0 ==> s[0] == Random(rng).value
    decreases n
  {
    if n == 0 then [] else [Random(rng).value] + Stream(Random(rng).next, n - 1)
  }

  /** The instance after `n` draws. */
  function Skip(rng: Rng, n: nat): (r: Rng)
    ensures r.inc == rng.inc
    decreases n
  {
    if n == 0 then rng else Skip(Random(rng).next, n - 1)
  }

  /** `(k * b) % b == 0`, used for the rejection threshold. */
  lemma MultipleMod(k: int, b: int)
    requires b > 0 && k >= 0
    ensures (k * b) % b == 0
  {
    var a := k * b;
    var q, r := a / b, a % b;
    assert a == b * q + r;
    var d := k - q;
    assert b * d == r;
    assert d >= 1 ==> b * d >= b;
    assert d <= -1 ==> b * d <= -b;
  }

  /**
    `(0u - bound) % bound`. For `bound > 0` the 32-bit `0u - bound` is
    `2^32 - bound`, so the threshold is computed on integers. The draws at or
    above it are a whole number of copies of `[0, bound)`.
   */
  function Threshold(bound: u32): (t: u32)
    requires bound > 0
    ensures t < bound
    ensures (UINT32_MODULUS - t) % bound == 0
  {
    var a := UINT32_MODULUS - bound;
    var t := a % bound;
    assert UINT32_MODULUS - t == (a / bound + 1) * bound;
    MultipleMod(a / bound + 1, bound);
    t
  }

  /** What `pcg32_boundedrand_r` returns, together with the instance it leaves behind. */
  datatype Bounded = Bounded(value: u32, next: Rng)

  /** The next raw draw is at or above the rejection threshold. */
  predicate Accepted(rng: Rng, bound: u32)
    requires bound > 0
  {
    Random(rng).value as int >= Threshold(bound)
  }

  /** The next raw draw reduced modulo `bound`. */
  function Reduced(rng: Rng, bound: u32): (v: u32)
    requires bound > 0
    ensures v < bound
  {
    Random(rng).value as int % bound
  }

  /**
    `pcg32_boundedrand_r` with a budget of `fuel` raw draws standing in for
    the retry loop: `None` when every draw within the budget was rejected.
    A bound of 0 divides by zero in the program, so the caller must avoid it.
   */
  function BoundedRand(rng: Rng, bound: u32, fuel: nat): (r: Option<Bounded>)
    requires bound > 0
    ensures r.Some? ==> r.value.value < bound
    ensures r.Some? ==> r.value.next.inc == rng.inc
    decreases fuel
  {
    if fuel == 0 then None
    else if Accepted(rng, bound) then Some(Bounded(Reduced(rng, bound), Random(rng).next))
    else BoundedRand(Random(rng).next, bound, fuel - 1)
  }

  /** The bounded draw gives up exactly when every one of the `fuel` draws falls below the threshold. */
  lemma {:induction false} BoundedRandGivesUp(rng: Rng, bound: u32, fuel: nat)
    requires bound > 0
    ensures BoundedRand(rng, bound, fuel).None? <==>
      forall j :: 0 <= j < fuel ==> !Accepted(Skip(rng, j), bound)
    decreases fuel
  {
    if fuel > 0 {
      var next := Skip(rng, 1);
      BoundedRandStep(rng, bound, fuel);
      assert Skip(rng, 0) == rng;
      if Accepted(rng, bound) {
        assert BoundedRand(rng, bound, fuel).Some?;
        assert 0 < fuel && Accepted(Skip(rng, 0), bound);
        assert exists j :: 0 <= j < fuel && Accepted(Skip(rng, j), bound);
      } else {
        assert BoundedRand(rng, bound, fuel) == BoundedRand(next, bound, fuel - 1);
        BoundedRandGivesUp(next, bound, fuel - 1);
        if forall j :: 0 <= j < fuel - 1 ==> !Accepted(Skip(next, j), bound) {
          forall j | 0 <= j < fuel
            ensures !Accepted(Skip(rng, j), bound)
          {
            if j > 0 {
              SkipStep(rng, j - 1);
              assert Skip(rng, j) == Skip(next, j - 1);
            }
          }
        } else {
          var j :| 0 <= j < fuel - 1 && Accepted(Skip(next, j), bound);
          SkipStep(rng, j);
          assert Skip(rng, j + 1) == Skip(next, j);
        }
      }
    }
  }

  /** One step of the retry loop, in terms of `Skip`. */
  lemma BoundedRandStep(rng: Rng, bound: u32, fuel: nat)
    requires bound > 0 && fuel > 0
    ensures Accepted(rng, bound) ==> BoundedRand(rng, bound, fuel) == Some(Bounded(Reduced(rng, bound), Skip(rng, 1)))
    ensures !Accepted(rng, bound) ==> BoundedRand(rng, bound, fuel) == BoundedRand(Skip(rng, 1), bound, fuel - 1)
  {
    assert Skip(rng, 1) == Random(rng).next;
  }

  /** Skipping `j + 1` draws is skipping one and then `j`. */
  lemma SkipStep(rng: Rng, j: nat)
    ensures Skip(rng, j + 1) == Skip(Skip(rng, 1), j)
  {
    assert Skip(rng, 1) == Random(rng).next;
  }

  /**
    The position of the first accepted draw within `fuel` draws, specified
    by the draws the instance yields after `Skip`.
   */
  function FirstAccepted(rng: Rng, bound: u32, fuel: nat): (k: Option<nat>)
    requires bound > 0
    ensures k.Some? ==> k.value < fuel && Accepted(Skip(rng, k.value), bound)
    ensures k.Some? ==> forall j :: 0 <= j < k.value ==> !Accepted(Skip(rng, j), bound)
    decreases fuel
  {
    if fuel == 0 then None
    else if Accepted(rng, bound) then Some(0)
    else match FirstAccepted(Skip(rng, 1), bound, fuel - 1)
      case None => None
      case Some(k) =>
        SkipStep(rng, k);
        assert forall j :: 1 <= j <= k ==> Skip(rng, j) == Skip(Skip(rng, 1), j - 1) by {
          forall j | 1 <= j <= k ensures Skip(rng, j) == Skip(Skip(rng, 1), j - 1) { SkipStep(rng, j - 1); }
        }
        Some(k + 1)
  }

  /** The bounded result when draw `k` is the one accepted: that draw reduced, and the instance after it. */
  function AcceptedAt(rng: Rng, bound: u32, k: nat): (b: Bounded)
    requires bound > 0
    ensures b.value < bound && b.next.inc == rng.inc
  {
    Bounded(Reduced(Skip(rng, k), bound), Skip(rng, k + 1))
  }

  /** Accepting draw `k + 1` is accepting draw `k` of the instance one draw on. */
  lemma AcceptedAtStep(rng: Rng, bound: u32, k: nat)
    requires bound > 0
    ensures AcceptedAt(rng, bound, k + 1) == AcceptedAt(Skip(rng, 1), bound, k)
  {
    SkipStep(rng, k);
    SkipStep(rng, k + 1);
  }

  /**
    When it succeeds, the bounded draw is the first accepted raw draw reduced
    modulo `bound`, and it leaves the instance just after that draw.
   */
  lemma {:induction false} BoundedRandFirstAccepted(rng: Rng, bound: u32, fuel: nat)
    requires bound > 0
    ensures BoundedRand(rng, bound, fuel) ==
      match FirstAccepted(rng, bound, fuel)
      case None => None
      case Some(k) => Some(AcceptedAt(rng, bound, k))
    decreases fuel
  {
    if fuel > 0 {
      var next := Skip(rng, 1);
      BoundedRandStep(rng, bound, fuel);
      BoundedRandFirstAccepted(next, bound, fuel - 1);
      if Accepted(rng, bound) {
        assert Skip(rng, 0) == rng;
      } else {
        match FirstAccepted(next, bound, fuel - 1)
        case None =>
        case Some(k) =>
          AcceptedAtStep(rng, bound, k);
      }
    }
  }

  /** Seeding establishes the odd increment and every later draw keeps it. */
  lemma SeededIncStaysOdd(rng: Rng, initstate: bv64, initseq: bv64, n: nat)
    ensures IncOdd(Skip(Seed(rng, initstate, initseq), n))
  {
  }

  /** The static initialiser already has an odd increment. */
  lemma InitializerIncOdd()
    ensures IncOdd(INITIALIZER)
  {
  }

  /**
    Seeding is deterministic: two instances seeded with the same pair produce
    the same stream, whatever they held before.
   */
  lemma SeedDeterministic(a: Rng, b: Rng, initstate: bv64, initseq: bv64, n: nat)
    ensures Seed(a, initstate, initseq) == Seed(b, initstate, initseq)
    ensures Stream(Seed(a, initstate, initseq), n) == Stream(Seed(b, initstate, initseq), n)
  {
  }

  /** The all-zero instance is a fixed point: the draw is 0 and the instance stays zero. */
  lemma ZeroIsFixedPoint()
    ensures Random(ZERO) == Draw(0, ZERO)
  {
    assert Permute(0) == 0;
  }

  /** Hence every output of the all-zero instance is 0, however many are drawn. */
  lemma {:induction false} ZeroStreamIsZero(n: nat)
    ensures Skip(ZERO, n) == ZERO
    ensures forall i :: 0 <= i < n ==> Stream(ZERO, n)[i] == 0
    decreases n
  {
    ZeroIsFixedPoint();
    if n > 0 {
      ZeroStreamIsZero(n - 1);
      assert Stream(ZERO, n) == [0] + Stream(ZERO, n - 1);
    }
  }

  /**
    Drawing `n + m` values is drawing `n`, then `m` more from the instance the
    first `n` leave behind: the default instance threaded through successive
    calls yields one continuous stream.
   */
  lemma {:induction false} StreamSplits(rng: Rng, n: nat, m: nat)
    ensures Stream(rng, n + m) == Stream(rng, n) + Stream(Skip(rng, n), m)
    ensures Skip(rng, n + m) == Skip(Skip(rng, n), m)
    decreases n
  {
    if n > 0 {
      var next := Random(rng).next;
      StreamSplits(next, n - 1, m);
      assert Stream(rng, n + m) == [Random(rng).value] + Stream(next, n - 1 + m);
      assert Stream(rng, n) == [Random(rng).value] + Stream(next, n - 1);
    }
  }

  /** Value `j` of the stream is the draw taken after skipping `j` draws. */
  lemma {:induction false} StreamIndexIsSkip(rng: Rng, n: nat, j: nat)
    requires j < n
    ensures Stream(rng, n)[j] == Random(Skip(rng, j)).value
    decreases j
  {
    if j > 0 {
      StreamIndexIsSkip(Random(rng).next, n - 1, j - 1);
      assert Stream(rng, n) == [Random(rng).value] + Stream(Random(rng).next, n - 1);
    }
  }
}

=== FILE: players.dfy ===
/**
  `struct player` and combat. A player holds its weapons vector and its
  armor by value. The combat generator is the file-scope `pcg_state`, a
  zero-initialised `pcg32_random_t` that nothing seeds; here it is an
  explicit `Rng` argument and result, starting at `Pcg32.ZERO`.
 */
module Players {

  import opened CTypes
  import Pcg32
  import Vectors
  import Weapons
  import Armors

  datatype Player = Player(
    weapons: Vectors.Vector<Weapons.Weapon>,
    armor: Armors.Armor,
    name: CStr,
    health: u32,
    wearingArmor: bool)

  /** A zero-initialised `struct player` (`= {0}`), also the state `free_player` leaves. */
  const ZEROED: Player := Player(Vectors.Zeroed(), Armors.ZEROED, Null, 0, false)

  /** The value of `pcg_state` before the first attack. */
  const COMBAT_RNG_START: Pcg32.Rng := Pcg32.ZERO

  /** A boolean status together with the player the call leaves behind. */
  datatype Updated = Updated(ok: bool, player: Player)

  /**
    `create_player` / `player_initialize`: rejects a NULL or empty name or a
    zero health without touching `p`; otherwise copies the name into the
    buffer at `addr`, sets the health, takes the weapons vector and the armor
    by value and marks the armor as worn.
   */
  function Initialize(name: CharPtr, health: u32, weapons: Vectors.Vector<Weapons.Weapon>,
                      armor: Armors.Armor, p: Player, addr: nat): (r: Updated)
    ensures r.ok <==> !NullOrEmpty(name) && health > 0
    ensures !r.ok ==> r.player == p
    ensures r.ok ==> TextEquals(r.player.name, name) && r.player.name.addr == addr && r.player.health == health
    ensures r.ok ==> r.player.weapons == weapons && r.player.armor == armor && r.player.wearingArmor
  {
    if NullOrEmpty(name) || health == 0 then Updated(false, p)
    else Updated(true, Player(weapons, armor, Buf(addr, name.value), health, true))
  }

  /** `(draw % 4) + 1 == 1`: the quarter of raw draws that trigger a critical hit. */
  predicate IsCritical(draw: bv32) {
    (draw % 4) + 1 == 1
  }

  /**
    The critical branch of `crit` converts `base * 1.5` back to
    `unsigned int`; the double product is exact, so the value is
    `floor(3 * base / 2)`, and the conversion is only defined below 2^32.
   */
  predicate CritDefined(damage: u32, resistance: u32, rng: Pcg32.Rng) {
    damage == 0 || resistance == 0 || !IsCritical(Pcg32.Random(rng).value) ||
    (damage / resistance * 3) / 2 < UINT32_MODULUS
  }

  /** What `crit` returns, together with the combat generator it leaves behind. */
  datatype Roll = Roll(damage: u32, rng: Pcg32.Rng)

  /**
    `crit`: no damage and no draw when either argument is 0; otherwise
    `base = damage / resistance`, one raw draw, and `floor(1.5 * base)` on a
    critical draw, `base` on any other.
   */
  function Crit(damage: u32, resistance: u32, rng: Pcg32.Rng): (r: Roll)
    requires CritDefined(damage, resistance, rng)
    ensures damage == 0 || resistance == 0 ==> r == Roll(0, rng)
    ensures damage > 0 && resistance > 0 ==> r.rng == Pcg32.Random(rng).next
    ensures damage > 0 && resistance > 0 && IsCritical(Pcg32.Random(rng).value) ==>
      2 * r.damage <= 3 * (damage / resistance) < 2 * r.damage + 2
    ensures damage > 0 && resistance > 0 && !IsCritical(Pcg32.Random(rng).value) ==>
      r.damage * resistance <= damage < (r.damage + 1) * resistance
  {
    if damage == 0 || resistance == 0 then Roll(0, rng)
    else
      var d := Pcg32.Random(rng);
      var base := damage / resistance;
      Roll(if IsCritical(d.value) then (base * 3) / 2 else base, d.next)
  }

  /** The weapon `player_attack` would use: none when the attack is rejected before the search or the search fails. */
  function SelectedWeapon(attacker: Player, weaponName: CharPtr, target: Player): (w: Option<Weapons.Weapon>)
    ensures w.Some? ==> !NullOrEmpty(weaponName) && target.health > 0
    ensures w.Some? ==> w.value in attacker.weapons.elems && Weapons.NameCmp(w.value, weaponName)
    ensures w.Some? ==> var m := Vectors.FirstMatch(attacker.weapons.elems, weaponName, Weapons.NameCmp);
      m.Some? && w.value == attacker.weapons.elems[m.value]
    ensures w.Some? <==>
      && !NullOrEmpty(weaponName) && target.health > 0 && attacker.weapons.items.Block?
      && exists i :: 0 <= i < attacker.weapons.Size() && Weapons.NameCmp(attacker.weapons.elems[i], weaponName)
  {
    if NullOrEmpty(weaponName) || target.health == 0 then None
    else Vectors.SearchElement(attacker.weapons, weaponName, Weapons.NameCmp, true).copy
  }

  /** The attack is free of undefined behaviour: the critical damage of the selected weapon fits. */
  predicate AttackDefined(attacker: Player, weaponName: CharPtr, target: Player, rng: Pcg32.Rng) {
    var w := SelectedWeapon(attacker, weaponName, target);
    w.Some? ==> CritDefined(w.value.damage, target.armor.resistance, rng)
  }

  /** What `player_attack` changes: the target and the combat generator. */
  datatype Outcome = Outcome(target: Player, rng: Pcg32.Rng)

  /**
    `player_attack`: a no-op for a NULL or empty weapon name, a target at
    health 0, or a name no weapon of the attacker carries. Otherwise the
    damage from `crit` against the target's armor resistance is subtracted
    from the target's health, stopping at 0. `weapon_use` then wears down
    the local copy of the weapon, which is discarded, so neither the
    attacker nor its stored weapons change.
   */
  function Attack(attacker: Player, weaponName: CharPtr, target: Player, rng: Pcg32.Rng): (r: Outcome)
    requires AttackDefined(attacker, weaponName, target, rng)
    ensures NullOrEmpty(weaponName) || target.health == 0 ==> r == Outcome(target, rng)
    ensures (forall i :: 0 <= i < attacker.weapons.Size() ==> !Weapons.NameCmp(attacker.weapons.elems[i], weaponName)) ==>
      r == Outcome(target, rng)
    ensures attacker.weapons.items.NullPtr? ==> r == Outcome(target, rng)
    ensures r.target == target.(health := r.target.health)
    ensures r.target.health <= target.health
    ensures SelectedWeapon(attacker, weaponName, target).Some? ==>
      var dealt := Crit(SelectedWeapon(attacker, weaponName, target).value.damage, target.armor.resistance, rng);
      r.rng == dealt.rng &&
      r.target.health == if target.health > dealt.damage then target.health - dealt.damage else 0
  {
    match SelectedWeapon(attacker, weaponName, target)
    case None => Outcome(target, rng)
    case Some(w) =>
      var dealt := Crit(w.damage, target.armor.resistance, rng);
      var health := if target.health > dealt.damage then target.health - dealt.damage else 0;
      Outcome(target.(health := health), dealt.rng)
  }

  /** `player_heal`: a zero amount changes nothing; otherwise health grows modulo 2^32, with no maximum. */
  function Heal(amount: u32, p: Player): (r: Player)
    ensures amount == 0 ==> r == p
    ensures amount > 0 ==> r.health == (p.health + amount) % UINT32_MODULUS
    ensures r == p.(health := r.health)
  {
    if amount == 0 then p else p.(health := AddU32(p.health, amount))
  }

  /** `player_equip_armor`: only a player not wearing armor changes; it puts on a copy of `a`. */
  function EquipArmor(a: Armors.Armor, p: Player): (r: Player)
    ensures r == p <==> p.wearingArmor
    ensures r.wearingArmor
    ensures !p.wearingArmor ==> r.armor == a
    ensures r.weapons == p.weapons && r.name == p.name && r.health == p.health
  {
    if p.wearingArmor then p else p.(armor := a, wearingArmor := true)
  }

  /**
    `player_update_weapons`: the tag `"add"` appends a copy of `w` (the
    block is what `realloc` returns if the vector grows), the tag `"remove"`
    removes the first byte-identical weapon, and any other tag, an empty
    tag or NULL changes nothing. Only the weapons vector changes.
   */
  function UpdateWeapons(tag: CharPtr, w: Weapons.Weapon, p: Player, block: nat): (r: Player)
    ensures tag == Some("add") ==> r.weapons == Vectors.PushBack(p.weapons, w, block)
    ensures tag == Some("remove") ==> r.weapons == Vectors.PopSearch(p.weapons, w).vec
    ensures tag != Some("add") && tag != Some("remove") ==> r == p
    ensures r == p.(weapons := r.weapons)
  {
    if NullOrEmpty(tag) then p
    else if tag.value == "add" then p.(weapons := Vectors.PushBack(p.weapons, w, block))
    else if tag.value == "remove" then p.(weapons := Vectors.PopSearch(p.weapons, w).vec)
    else p
  }

  /**
    `player_add_player`: the name is the two names joined by a colon in a
    buffer at `nameAddr`, the health is the 32-bit sum, the armor is
    `armor_add_armor` of both armors (its name at `armorAddr`) and is worn.
    The merged weapons vector is built but never stored, so the weapons of
    `out` are left as they were. Every name read must exist.
   */
  function AddPlayer(p1: Player, p2: Player, out: Player, nameAddr: nat, armorAddr: nat): (r: Player)
    requires p1.name.Buf? && p2.name.Buf? && p1.armor.name.Buf? && p2.armor.name.Buf?
    ensures r.name == Buf(nameAddr, p1.name.text + ":" + p2.name.text)
    ensures r.health == (p1.health + p2.health) % UINT32_MODULUS
    ensures r.armor == Armors.AddArmor(p1.armor, p2.armor, armorAddr)
    ensures r.wearingArmor
    ensures r.weapons == out.weapons
  {
    out.(name := Buf(nameAddr, p1.name.text + ":" + p2.name.text),
         health := AddU32(p1.health, p2.health),
         armor := Armors.AddArmor(p1.armor, p2.armor, armorAddr),
         wearingArmor := true)
  }

  /** `free_player` / `player_deinitialize`: a player without a name buffer is left alone; otherwise every field is cleared. */
  function Deinitialize(p: Player): (r: Player)
    ensures p.name.Null? ==> r == p
    ensures p.name.Buf? ==> r.name.Null? && r.health == 0 && !r.wearingArmor && r.weapons.Size() == 0
    ensures p.name.Buf? ==> r.armor == Armors.ZEROED && r.weapons == Vectors.Zeroed()
  {
    if p.name.Null? then p else ZEROED
  }

  /**
    The combat generator is never seeded, so it stays all-zero, every draw
    is 0, and every hit with positive damage and resistance is critical.
   */
  lemma UnseededCombatAlwaysCrits(damage: u32, resistance: u32)
    requires damage > 0 && resistance > 0
    requires (damage / resistance * 3) / 2 < UINT32_MODULUS
    ensures CritDefined(damage, resistance, COMBAT_RNG_START)
    ensures Crit(damage, resistance, COMBAT_RNG_START) == Roll((3 * (damage / resistance)) / 2, COMBAT_RNG_START)
  {
    Pcg32.ZeroIsFixedPoint();
  }

  /** Whatever the arguments, `crit` on the never-seeded generator deals the critical amount. */
  lemma UnseededCritIsCritical(damage: u32, resistance: u32)
    requires CritDefined(damage, resistance, COMBAT_RNG_START)
    ensures Crit(damage, resistance, COMBAT_RNG_START).damage as int ==
      if resistance == 0 then 0 else (3 * (damage / resistance)) / 2
    ensures Crit(damage, resistance, COMBAT_RNG_START).rng == COMBAT_RNG_START
  {
    if damage == 0 || resistance == 0 {
    } else {
      Pcg32.ZeroIsFixedPoint();
      assert IsCritical(Pcg32.Random(COMBAT_RNG_START).value);
      UnseededCombatAlwaysCrits(damage, resistance);
    }
  }

  /**
    Combat as the program plays it: from the never-seeded generator, a hit
    with the selected weapon always deals the critical amount
    `floor(1.5 * (damage / resistance))` (0 when the resistance is 0), health
    falls by that amount or to 0, and the generator stays all-zero.
   */
  lemma UnseededAttackDealsCritical(attacker: Player, weaponName: CharPtr, target: Player)
    requires AttackDefined(attacker, weaponName, target, COMBAT_RNG_START)
    requires SelectedWeapon(attacker, weaponName, target).Some?
    ensures var damage := SelectedWeapon(attacker, weaponName, target).value.damage;
      var resistance := target.armor.resistance;
      var dealt := if resistance == 0 then 0 else (3 * (damage / resistance)) / 2;
      var r := Attack(attacker, weaponName, target, COMBAT_RNG_START);
      && r.rng == Pcg32.ZERO
      && r.target.health == (if target.health > dealt then target.health - dealt else 0)
  {
    var w := SelectedWeapon(attacker, weaponName, target).value;
    UnseededCritIsCritical(w.damage, target.armor.resistance);
  }

  /** Merging two players with valid armors gives a valid worn armor, as long as no armor sum wraps. */
  lemma AddPlayerKeepsArmorValid(p1: Player, p2: Player, out: Player, nameAddr: nat, armorAddr: nat)
    requires p1.name.Buf? && p2.name.Buf?
    requires Armors.Valid(p1.armor) && Armors.Valid(p2.armor)
    requires p1.armor.maxHealth + p2.armor.maxHealth < UINT32_MODULUS
    requires p1.armor.resistance + p2.armor.resistance < UINT32_MODULUS
    ensures var r := AddPlayer(p1, p2, out, nameAddr, armorAddr);
      Armors.Valid(r.armor) && r.wearingArmor && |r.name.text| == |p1.name.text| + 1 + |p2.name.text|
  {
    Armors.AddArmorKeepsValid(p1.armor, p2.armor, armorAddr);
  }

  /**
    Adding a weapon the player did not carry and then removing it restores
    the number of weapons; at a positive element size removal finds the
    appended copy, the only identical one, and the weapons are as before.
   */
  lemma {:induction false} AddThenRemoveRestoresWeapons(w: Weapons.Weapon, p: Player, block: nat)
    requires w !in p.weapons.elems
    ensures UpdateWeapons(Some("remove"), w, UpdateWeapons(Some("add"), w, p, block), block).weapons.Size() == p.weapons.Size()
    ensures p.weapons.eSize > 0 ==>
      UpdateWeapons(Some("remove"), w, UpdateWeapons(Some("add"), w, p, block), block).weapons.elems == p.weapons.elems
  {
    var s := p.weapons.elems;
    var added := UpdateWeapons(Some("add"), w, p, block).weapons;
    assert added.elems == s + [w];
    assert w in added.elems;
    if p.weapons.eSize > 0 {
      assert Vectors.FirstEqual(added.elems, w) == |s|;
      assert Vectors.RemoveAt(added.elems, |s|) == s;
    }
  }

  /**
    Removal is byte-wise: asking to remove a weapon with the same text,
    health and damage as the carried one but a different name buffer
    changes nothing, although `weapon_is_equal` calls the two equal. Only a
    vector of element size 0, where `memcmp` compares nothing, drops it.
   */
  lemma RemoveNeedsSameBuffer(p: Player, block: nat)
    requires p.weapons.elems == [Weapons.Weapon(Buf(1, "Sword"), 100, 10)]
    ensures var copy := Weapons.Weapon(Buf(2, "Sword"), 100, 10);
      && Weapons.IsEqual(p.weapons.elems[0], copy)
      && (p.weapons.eSize > 0 ==> UpdateWeapons(Some("remove"), copy, p, block) == p)
      && (p.weapons.eSize == 0 ==> UpdateWeapons(Some("remove"), copy, p, block).weapons.Size() == 0)
  {
    var copy := Weapons.Weapon(Buf(2, "Sword"), 100, 10);
    assert copy != p.weapons.elems[0];
  }

  /** Releasing a player twice is harmless: the second call leaves the zeroed player as it is. */
  lemma DeinitializeIdempotent(p: Player)
    ensures Deinitialize(Deinitialize(p)) == Deinitialize(p)
    ensures p.name.Buf? ==> Deinitialize(p) == ZEROED
  {
  }

  /** Two heals add up modulo 2^32; only the health changes. */
  lemma HealComposes(a: u32, b: u32, p: Player)
    ensures Heal(a, Heal(b, p)).health == (p.health + a + b) % UINT32_MODULUS
    ensures Heal(a, Heal(b, p)) == Heal(b, Heal(a, p))
  {
  }

  /**
    A freshly initialised player already wears its armor, so equipping is a
    no-op for it, and only the first of two equips takes effect.
   */
  lemma EquipOnlyOnce(name: CharPtr, health: u32, weapons: Vectors.Vector<Weapons.Weapon>,
                      armor: Armors.Armor, a: Armors.Armor, b: Armors.Armor, p: Player, addr: nat)
    ensures var made := Initialize(name, health, weapons, armor, p, addr);
      made.ok ==> EquipArmor(a, made.player) == made.player
    ensures EquipArmor(b, EquipArmor(a, p)) == EquipArmor(a, p)
  {
  }
}

=== FILE: vectors.dfy ===
/**
  The generic dynamic array (`struct vector`). The C code stores raw,
  fixed-width byte records; the model is generic over the element type
  instead, and byte-wise equality (`memcmp`) becomes structural equality of
  the record. The live slots `[0, size)` are the sequence `elems`, so `size`
  is `|elems|`; `capacity` counts allocated slots and `eSize` is the
  recorded byte width. A vector with `eSize` 0 stores records of no bytes:
  its slot values are never copied out, and `memcmp` accepts every slot.
  Every operation returns the new vector value.

  Each operation is first given as a function (its reference meaning); the
  two scanning loops of the C code are then given as methods that follow the
  loops step by step and are proved to compute the reference result.
 */
module Vectors {

  import opened CTypes

  /** `void *items`: NULL, or the address of the block holding the slots. */
  datatype Ptr = NullPtr | Block(addr: nat)

  datatype Vector<T> = Vector(items: Ptr, eSize: nat, capacity: nat, elems: seq<T>) {

    /** `size`: the number of live slots. */
    function Size(): nat {
      |elems|
    }

    /** The invariant the container keeps: `size <= capacity`. */
    predicate Valid() {
      |elems| <= capacity
    }
  }

  /** A zero-initialised `struct vector` (`= {0}`), also the state `free_vector` leaves. */
  function Zeroed<T>(): (v: Vector<T>)
    ensures v.Valid() && v.Size() == 0 && v.items == NullPtr
  {
    Vector(NullPtr, 0, 0, [])
  }

  /** A boolean status together with the vector the call leaves behind. */
  datatype Updated<T> = Updated(ok: bool, vec: Vector<T>)

  /**
    `create_vector` / `vector_initialize`: rejects a zero capacity or a zero
    element size without touching the vector; otherwise installs the block
    returned by the allocator (`block`), the element size and the capacity.
    `size` is not written, so the live slots are whatever the caller's
    struct held (nothing, for a zero-initialised struct).
   */
  function Initialize<T>(capacity: nat, eSize: nat, vec: Vector<T>, block: nat): (r: Updated<T>)
    ensures r.ok <==> capacity > 0 && eSize > 0
    ensures !r.ok ==> r.vec == vec
    ensures r.ok ==> r.vec.items == Block(block) && r.vec.eSize == eSize && r.vec.capacity == capacity
    ensures r.ok ==> r.vec.Size() == vec.Size()
    ensures r.ok && vec.Size() <= capacity ==> r.vec.Valid()
  {
    if capacity == 0 then Updated(false, vec)
    else if eSize == 0 then Updated(false, vec)
    else Updated(true, Vector(Block(block), eSize, capacity, vec.elems))
  }

  /**
    The index of the leftmost element for which `cmp(element, key)` holds,
    or `None` when there is none.
   */
  function FirstMatch<T, K>(s: seq<T>, key: K, cmp: (T, K) -> bool): (r: Option<nat>)
    ensures r.Some? ==> r.value < |s| && cmp(s[r.value], key)
    ensures r.Some? ==> forall j :: 0 <= j < r.value ==> !cmp(s[j], key)
    ensures r.None? <==> forall j :: 0 <= j < |s| ==> !cmp(s[j], key)
    decreases |s|
  {
    if |s| == 0 then None
    else if cmp(s[0], key) then Some(0)
    else match FirstMatch(s[1..], key, cmp)
      case None => None
      case Some(i) => Some(i + 1)
  }

  /**
    `memcmp(x, y, eSize) == 0`: a comparison over 0 bytes accepts any two
    records. A positive width is taken to be the full record width, which
    is what every caller passes (`sizeof` the record); over it only
    identical records agree.
   */
  predicate Identical<T(==)>(eSize: nat, x: T, y: T) {
    eSize == 0 || x == y
  }

  /** The index of the first slot equal to `e`. */
  function FirstEqual<T(==)>(s: seq<T>, e: T): (k: nat)
    requires e in s
    ensures k < |s| && s[k] == e
    ensures forall j :: 0 <= j < k ==> s[j] != e
  {
    var r := FirstMatch(s, e, (x: T, y: T) => x == y);
    assert s[r.value] == e;
    r.value
  }

  /**
    The first live slot `memcmp` reports identical to `e`: with a positive
    element size the first slot equal to `e`, with size 0 slot 0 whenever
    there is a slot at all.
   */
  function FirstIdentical<T(==)>(vec: Vector<T>, e: T): (k: Option<nat>)
    ensures k.Some? ==> k.value < vec.Size() && Identical(vec.eSize, vec.elems[k.value], e)
    ensures k.Some? ==> forall j :: 0 <= j < k.value ==> !Identical(vec.eSize, vec.elems[j], e)
    ensures k.None? <==> forall j :: 0 <= j < vec.Size() ==> !Identical(vec.eSize, vec.elems[j], e)
    ensures vec.eSize > 0 ==> (k.Some? <==> e in vec.elems)
    ensures vec.eSize > 0 && k.Some? ==> k.value == FirstEqual(vec.elems, e)
    ensures vec.eSize == 0 ==> k == if vec.Size() > 0 then Some(0) else None
  {
    if vec.eSize == 0 then (if vec.Size() > 0 then Some(0) else None)
    else if e in vec.elems then Some(FirstEqual(vec.elems, e))
    else None
  }

  /** The outcome of a search: whether a slot matched, and the copy written to the output buffer. */
  datatype Found<T> = Found(ok: bool, copy: Option<T>)

  /**
    `vector_search_element`: fails on a vector whose `items` is NULL;
    otherwise reports whether some live slot matches `key` under `cmp`, and,
    when an output buffer is supplied (`wantCopy`), copies the leftmost
    matching slot into it. The vector is only read.
   */
  function SearchElement<T, K>(vec: Vector<T>, key: K, cmp: (T, K) -> bool, wantCopy: bool): (r: Found<T>)
    ensures r.ok <==> vec.items.Block? && exists i :: 0 <= i < vec.Size() && cmp(vec.elems[i], key)
    ensures r.copy.Some? <==> r.ok && wantCopy
    ensures r.copy.Some? ==> exists i :: 0 <= i < vec.Size() && r.copy.value == vec.elems[i] && cmp(vec.elems[i], key)
    ensures r.copy.Some? ==> r.copy.value == vec.elems[FirstMatch(vec.elems, key, cmp).value]
  {
    if vec.items.NullPtr? then Found(false, None)
    else match FirstMatch(vec.elems, key, cmp)
      case None => Found(false, None)
      case Some(i) => Found(true, if wantCopy then Some(vec.elems[i]) else None)
  }

  /**
    `vector_get_element`: `buffer` is the caller's output buffer (`None` for
    NULL, otherwise what it holds). Fails without a buffer or when `index`
    is not below `size`; otherwise the result is the buffer after copying
    `eSize` bytes of slot `index` into it, which leaves it as it was when
    `eSize` is 0.
   */
  function GetElement<T>(vec: Vector<T>, index: nat, buffer: Option<T>): (r: Option<T>)
    ensures r.Some? <==> buffer.Some? && index < vec.Size()
    ensures r.Some? && vec.eSize > 0 ==> r.value == vec.elems[index]
    ensures r.Some? && vec.eSize == 0 ==> r == buffer
  {
    if buffer.None? || index >= vec.Size() then None
    else if vec.eSize == 0 then buffer
    else Some(vec.elems[index])
  }

  /** The capacity `push_back` grows to: doubled, or 1 when it was 0. */
  function Grown(capacity: nat): (c: nat)
    ensures c > capacity
    ensures capacity == 0 ==> c == 1
    ensures capacity > 0 ==> c == 2 * capacity
  {
    if capacity == 0 then 1 else capacity * 2
  }

  /**
    `vector_push_back`: when `size >= capacity` the capacity grows and the
    slots move to the block returned by `realloc` (`block`); then the
    element is copied into slot `size` and `size` grows by one.
   */
  function PushBack<T>(vec: Vector<T>, e: T, block: nat): (r: Vector<T>)
    ensures r.Size() == vec.Size() + 1
    ensures r.elems[vec.Size()] == e
    ensures forall i :: 0 <= i < vec.Size() ==> r.elems[i] == vec.elems[i]
    ensures vec.Size() >= vec.capacity ==> r.capacity == Grown(vec.capacity) && r.items == Block(block)
    ensures vec.Size() < vec.capacity ==> r.capacity == vec.capacity && r.items == vec.items
    ensures r.eSize == vec.eSize
    ensures vec.Valid() ==> r.Valid()
  {
    var grown := if vec.Size() >= vec.capacity then vec.(capacity := Grown(vec.capacity), items := Block(block)) else vec;
    grown.(elems := vec.elems + [e])
  }

  /** The slots of `s` without slot `i`, the later ones moved one position left. */
  function RemoveAt<T>(s: seq<T>, i: nat): (r: seq<T>)
    requires i < |s|
    ensures |r| == |s| - 1
    ensures forall j :: 0 <= j < i ==> r[j] == s[j]
    ensures forall j :: i <= j < |r| ==> r[j] == s[j + 1]
    ensures multiset(r) + multiset{s[i]} == multiset(s)
  {
    assert s == s[..i] + [s[i]] + s[i + 1..];
    s[..i] + s[i + 1..]
  }

  /**
    `vector_pop_search`: removes the first slot `memcmp` reports identical
    to `e` over `eSize` bytes, shifting the later slots left and
    decrementing `size`; when no slot matches it fails and the vector is
    unchanged. With `eSize` 0 every slot matches, so slot 0 goes.
   */
  function PopSearch<T(==)>(vec: Vector<T>, e: T): (r: Updated<T>)
    ensures r.ok <==> exists i :: 0 <= i < vec.Size() && Identical(vec.eSize, vec.elems[i], e)
    ensures r.ok <==> e in vec.elems || (vec.eSize == 0 && vec.Size() > 0)
    ensures !r.ok ==> r.vec == vec
    ensures r.ok ==> r.vec == vec.(elems := RemoveAt(vec.elems, FirstIdentical(vec, e).value))
    ensures r.ok && vec.eSize > 0 ==> r.vec == vec.(elems := RemoveAt(vec.elems, FirstEqual(vec.elems, e)))
    ensures r.ok && vec.eSize > 0 ==> multiset(r.vec.elems) + multiset{e} == multiset(vec.elems)
    ensures r.ok && vec.eSize == 0 ==> r.vec == vec.(elems := vec.elems[1..])
    ensures r.ok ==> r.vec.Size() == vec.Size() - 1
  {
    match FirstIdentical(vec, e)
    case None => Updated(false, vec)
    case Some(k) => Updated(true, vec.(elems := RemoveAt(vec.elems, k)))
  }

  /** The outcome of `vector_pop_index`: status, the vector left behind, and the removed element. */
  datatype Popped<T> = Popped(ok: bool, vec: Vector<T>, out: Option<T>)

  /**
    `vector_pop_index`: fails without an output buffer (the implementation
    rejects NULL although the header calls it optional) or when `index` is
    not below `size`; otherwise copies `eSize` bytes of slot `index` into
    the buffer (`out` is the buffer afterwards) and closes the gap.
   */
  function PopIndex<T>(vec: Vector<T>, index: nat, buffer: Option<T>): (r: Popped<T>)
    ensures r.ok <==> buffer.Some? && index < vec.Size()
    ensures !r.ok ==> r.vec == vec && r.out.None?
    ensures r.ok && vec.eSize > 0 ==> r.out == Some(vec.elems[index])
    ensures r.ok && vec.eSize == 0 ==> r.out == buffer
    ensures r.ok ==> r.vec.items == vec.items && r.vec.capacity == vec.capacity && r.vec.eSize == vec.eSize
    ensures r.ok ==> r.vec.elems == RemoveAt(vec.elems, index)
  {
    if buffer.None? || index >= vec.Size() then Popped(false, vec, None)
    else Popped(true, vec.(elems := RemoveAt(vec.elems, index)), GetElement(vec, index, buffer))
  }

  /** `free_vector` / `vector_deinitialize`: releases the block and clears every field. */
  function Deinitialize<T>(vec: Vector<T>): (r: Vector<T>)
    ensures r.items == NullPtr && r.eSize == 0 && r.Size() == 0 && r.capacity == 0
  {
    Zeroed()
  }

  /** The scan of `vector_search_element`, slot by slot from index 0. */
  method SearchLoop<T, K>(vec: Vector<T>, key: K, cmp: (T, K) -> bool, wantCopy: bool) returns (r: Found<T>)
    ensures r == SearchElement(vec, key, cmp, wantCopy)
  {
    if vec.items.NullPtr? {
      return Found(false, None);
    }
    var i := 0;
    while i < |vec.elems|
      invariant 0 <= i <= |vec.elems|
      invariant forall j :: 0 <= j < i ==> !cmp(vec.elems[j], key)
    {
      if cmp(vec.elems[i], key) {
        var copy := if wantCopy then Some(vec.elems[i]) else None;
        return Found(true, copy);
      }
      i := i + 1;
    }
    return Found(false, None);
  }

  /**
    The loops of `vector_pop_search`: find the first slot `memcmp` accepts,
    copy each later slot onto its left neighbour, then drop the last slot.
   */
  method PopSearchLoop<T(==)>(vec: Vector<T>, e: T) returns (r: Updated<T>)
    ensures r == PopSearch(vec, e)
  {
    var i := 0;
    while i < |vec.elems|
      invariant 0 <= i <= |vec.elems|
      invariant forall j :: 0 <= j < i ==> !Identical(vec.eSize, vec.elems[j], e)
    {
      if vec.eSize == 0 || vec.elems[i] == e {
        var slots := vec.elems;
        var j := i + 1;
        while j < |slots|
          invariant i + 1 <= j <= |slots| == |vec.elems|
          invariant forall k :: 0 <= k < i ==> slots[k] == vec.elems[k]
          invariant forall k :: i <= k < j - 1 ==> slots[k] == vec.elems[k + 1]
          invariant forall k :: j <= k < |slots| ==> slots[k] == vec.elems[k]
        {
          slots := slots[j - 1 := slots[j]];
          j := j + 1;
        }
        var remaining := slots[..|slots| - 1];
        assert remaining == RemoveAt(vec.elems, i);
        return Updated(true, vec.(elems := remaining));
      }
      i := i + 1;
    }
    return Updated(false, vec);
  }

  /**
    After `push_back(x)` on a vector of size `n`, `get(n)` copies `x` into
    the buffer (nothing, when the element size is 0) and every earlier `get`
    is unchanged.
   */
  lemma GetAfterPushBack<T>(vec: Vector<T>, e: T, block: nat, i: nat, b: T)
    ensures vec.eSize > 0 ==> GetElement(PushBack(vec, e, block), vec.Size(), Some(b)) == Some(e)
    ensures vec.eSize == 0 ==> GetElement(PushBack(vec, e, block), vec.Size(), Some(b)) == Some(b)
    ensures i < vec.Size() ==> GetElement(PushBack(vec, e, block), i, Some(b)) == GetElement(vec, i, Some(b))
    ensures i > vec.Size() ==> GetElement(PushBack(vec, e, block), i, Some(b)).None?
  {
  }

  /**
    Popping the last index undoes a `push_back`: the slots are as before
    and the element comes back (the buffer is untouched at element size 0).
   */
  lemma PopIndexUndoesPushBack<T>(vec: Vector<T>, e: T, block: nat, b: T)
    ensures vec.eSize > 0 ==> PopIndex(PushBack(vec, e, block), vec.Size(), Some(b)).out == Some(e)
    ensures vec.eSize == 0 ==> PopIndex(PushBack(vec, e, block), vec.Size(), Some(b)).out == Some(b)
    ensures PopIndex(PushBack(vec, e, block), vec.Size(), Some(b)).vec.elems == vec.elems
  {
    var pushed := PushBack(vec, e, block);
    assert pushed.elems[..vec.Size()] == vec.elems;
  }

  /**
    Removing the slot at `i` keeps the earlier reads, shifts the later
    ones down by one, and leaves `size <= capacity` true.
   */
  lemma PopIndexShiftsReads<T>(vec: Vector<T>, index: nat, j: nat, b: T)
    requires index < vec.Size()
    ensures PopIndex(vec, index, Some(b)).vec.Size() == vec.Size() - 1
    ensures j < index ==> GetElement(PopIndex(vec, index, Some(b)).vec, j, Some(b)) == GetElement(vec, j, Some(b))
    ensures j >= index ==> GetElement(PopIndex(vec, index, Some(b)).vec, j, Some(b)) == GetElement(vec, j + 1, Some(b))
    ensures vec.Valid() ==> PopIndex(vec, index, Some(b)).vec.Valid()
  {
  }

  /**
    `pop_search` removes at most one slot, and exactly one when `memcmp`
    accepts some slot: one identical to `e`, or any slot at element size 0.
   */
  lemma PopSearchRemovesAtMostOne<T>(vec: Vector<T>, e: T)
    ensures PopSearch(vec, e).vec.Size() ==
      if e in vec.elems || (vec.eSize == 0 && vec.Size() > 0) then vec.Size() - 1 else vec.Size()
    ensures multiset(PopSearch(vec, e).vec.elems) <= multiset(vec.elems)
    ensures vec.Valid() ==> PopSearch(vec, e).vec.Valid()
  {
  }

  /**
    The slots before the removed one keep their order and are not accepted
    by `memcmp`, so at a positive element size they hold no copy of `e`;
    the slots after it move one position left.
   */
  lemma PopSearchKeepsPrefix<T>(vec: Vector<T>, e: T)
    requires PopSearch(vec, e).ok
    ensures var k := FirstIdentical(vec, e).value;
      && vec.elems[..k] == PopSearch(vec, e).vec.elems[..k]
      && (forall j :: 0 <= j < k ==> !Identical(vec.eSize, vec.elems[j], e))
      && (vec.eSize > 0 ==> e !in vec.elems[..k])
      && vec.elems[k + 1..] == PopSearch(vec, e).vec.elems[k..]
  {
  }

  /** Releasing twice is harmless: the second call leaves the cleared vector as it is. */
  lemma DeinitializeIdempotent<T>(vec: Vector<T>)
    ensures Deinitialize(Deinitialize(vec)) == Deinitialize(vec)
    ensures Deinitialize(vec).Valid()
  {
  }

  /**
    Push/get round trip from a capacity of 2: three pushes grow the capacity
    to 4 and the reads return the pushed values in order; removing index 1
    then returns the second value and closes the gap.
   */
  lemma PushGetPopScenario(vec: Vector<u32>)
    requires vec == Initialize(2, 4, Zeroed(), 100).vec
    ensures var v3 := PushBack(PushBack(PushBack(vec, 1, 100), 2, 100), 3, 200);
      && v3.Size() == 3 && v3.capacity == 4
      && GetElement(v3, 0, Some(0)) == Some(1) && GetElement(v3, 1, Some(0)) == Some(2) && GetElement(v3, 2, Some(0)) == Some(3)
      && PopIndex(v3, 1, Some(0)).out == Some(2)
      && PopIndex(v3, 1, Some(0)).vec.elems == [1, 3]
  {
    var v3 := PushBack(PushBack(PushBack(vec, 1, 100), 2, 100), 3, 200);
    assert v3.elems == [1, 2, 3];
  }

  /** A record of two 32-bit fields, as in the byte-wise removal example. */
  datatype Pair = Pair(id: u32, tag: u32)

  /** Byte-wise removal takes only the first identical record; the later duplicate stays. */
  lemma PopSearchFirstOnlyScenario()
    ensures var v := Vector(Block(1), 8, 4, [Pair(1, 9), Pair(2, 9), Pair(1, 9)]);
      && PopSearch(v, Pair(1, 9)).ok
      && PopSearch(v, Pair(1, 9)).vec.elems == [Pair(2, 9), Pair(1, 9)]
  {
    var s := [Pair(1, 9), Pair(2, 9), Pair(1, 9)];
    assert s[0] == Pair(1, 9);
    assert FirstEqual(s, Pair(1, 9)) == 0;
    assert FirstIdentical(Vector(Block(1), 8, 4, s), Pair(1, 9)) == Some(0);
  }
}

=== FILE: weapons.dfy ===
/**
  `struct weapon`: an owned name buffer, a health and a damage, both 32-bit
  `unsigned int` with wrap-around. A weapon is stored by value in a player's
  weapons vector, so two weapons are byte-identical only when they share the
  same name buffer.
 */
module Weapons {

  import opened CTypes

  datatype Weapon = Weapon(name: CStr, health: u32, damage: u32)

  /** A zero-initialised `struct weapon` (`= {0}`), also the state `free_weapon` leaves. */
  const ZEROED: Weapon := Weapon(Null, 0, 0)

  /** A boolean status together with the weapon the call leaves behind. */
  datatype Updated = Updated(ok: bool, weapon: Weapon)

  /**
    `create_weapon` / `weapon_initialize`: rejects a NULL or empty name, a
    zero health or a zero damage without touching `w`; otherwise copies the
    name into the buffer the allocator returned at `addr` and sets both
    numbers.
   */
  function Initialize(name: CharPtr, health: u32, damage: u32, w: Weapon, addr: nat): (r: Updated)
    ensures r.ok <==> !NullOrEmpty(name) && health > 0 && damage > 0
    ensures !r.ok ==> r.weapon == w
    ensures r.ok ==> TextEquals(r.weapon.name, name) && r.weapon.name.addr == addr
    ensures r.ok ==> r.weapon.health == health && r.weapon.damage == damage
  {
    if NullOrEmpty(name) || health == 0 || damage == 0 then Updated(false, w)
    else Updated(true, Weapon(Buf(addr, name.value), health, damage))
  }

  /**
    `weapon_use`: a zero amount changes nothing. Otherwise the health is
    clamped to 0 when it does not exceed the amount and the amount is then
    subtracted regardless, so that case wraps to `2^32 - damage`.
   */
  function Use(damage: u32, w: Weapon): (r: Weapon)
    ensures damage == 0 ==> r == w
    ensures damage > 0 && w.health > damage ==> r.health == w.health - damage
    ensures damage > 0 && w.health <= damage ==> r.health == UINT32_MODULUS - damage
    ensures r.name == w.name && r.damage == w.damage
  {
    if damage == 0 then w
    else
      var clamped := if w.health <= damage then 0 else w.health;
      w.(health := SubU32(clamped, damage))
  }

  /** `weapon_repair`: a zero amount changes nothing; otherwise health grows modulo 2^32. */
  function Repair(amount: u32, w: Weapon): (r: Weapon)
    ensures amount == 0 ==> r == w
    ensures amount > 0 ==> r.health == (w.health + amount) % UINT32_MODULUS
    ensures r.name == w.name && r.damage == w.damage
  {
    if amount == 0 then w else w.(health := AddU32(w.health, amount))
  }

  /** `weapon_enhance`: a zero amount changes nothing; otherwise damage grows modulo 2^32. */
  function Enhance(amount: u32, w: Weapon): (r: Weapon)
    ensures amount == 0 ==> r == w
    ensures amount > 0 ==> r.damage == (w.damage + amount) % UINT32_MODULUS
    ensures r.name == w.name && r.health == w.health
  {
    if amount == 0 then w else w.(damage := AddU32(w.damage, amount))
  }

  /**
    `weapon_name_cmp`, the comparator the attack hands to the vector search:
    the weapon's name text equals the key text. A NULL key never matches.
   */
  predicate NameCmp(w: Weapon, key: CharPtr) {
    TextEquals(w.name, key)
  }

  /** `weapon_is_equal`: same name text, same health, same damage. */
  predicate IsEqual(w1: Weapon, w2: Weapon) {
    && w1.name.Buf? && w2.name.Buf?
    && w1.name.text == w2.name.text
    && w1.health == w2.health
    && w1.damage == w2.damage
  }

  /** `free_weapon` / `weapon_deinitialize`: a weapon without a name buffer is left alone. */
  function Deinitialize(w: Weapon): (r: Weapon)
    ensures w.name.Null? ==> r == w
    ensures w.name.Buf? ==> r.name.Null? && r.health == 0 && r.damage == 0
  {
    if w.name.Null? then w else ZEROED
  }

  /** A successful initialisation yields a weapon that `weapon_is_equal` accepts against itself. */
  lemma InitializeYieldsNamedWeapon(name: CharPtr, health: u32, damage: u32, w: Weapon, addr: nat)
    requires Initialize(name, health, damage, w, addr).ok
    ensures var made := Initialize(name, health, damage, w, addr).weapon;
      IsEqual(made, made) && NameCmp(made, name) && made.health > 0 && made.damage > 0
  {
  }

  /** `weapon_is_equal` is reflexive on named weapons and symmetric, and it ignores the buffer address. */
  lemma IsEqualIsEquivalence(w1: Weapon, w2: Weapon)
    ensures w1.name.Buf? ==> IsEqual(w1, w1)
    ensures IsEqual(w1, w2) <==> IsEqual(w2, w1)
    ensures IsEqual(w1, w2) ==> forall key :: NameCmp(w1, key) <==> NameCmp(w2, key)
  {
  }

  /**
    Two weapons copied from the same text into different buffers are equal
    under `weapon_is_equal` and match the same name, yet are not identical
    records, so a byte-wise removal looking for one never removes the other.
   */
  lemma SameTextDifferentBuffer()
    ensures var a := Weapon(Buf(1, "Sword"), 100, 10);
      var b := Weapon(Buf(2, "Sword"), 100, 10);
      IsEqual(a, b) && NameCmp(a, Some("Sword")) && NameCmp(b, Some("Sword")) && a != b
  {
  }

  /** Releasing twice is harmless. */
  lemma DeinitializeIdempotent(w: Weapon)
    ensures Deinitialize(Deinitialize(w)) == Deinitialize(w)
  {
  }

  /** With a positive amount, `weapon_use` never leaves a health of 0; it wraps instead of saturating. */
  lemma UseNeverZeroes(damage: u32, w: Weapon)
    requires damage > 0
    ensures Use(damage, w).health > 0
    ensures w.health <= damage ==> Use(damage, w).health > w.health - damage
  {
  }

  /** Using a weapon by the amount it was just repaired by gives it back, as long as nothing wrapped. */
  lemma UseUndoesRepair(amount: u32, w: Weapon)
    requires amount > 0 && w.health > 0 && w.health + amount < UINT32_MODULUS
    ensures Use(amount, Repair(amount, w)) == w
  {
  }

  /** Two enhancements add up modulo 2^32, in either order. */
  lemma EnhanceComposes(a: u32, b: u32, w: Weapon)
    ensures Enhance(a, Enhance(b, w)).damage == (w.damage + a + b) % UINT32_MODULUS
    ensures Enhance(a, Enhance(b, w)) == Enhance(b, Enhance(a, w))
  {
  }
}
